=== FILE: README.md ===
# antminer-monitor: one refresh of the miners page, in Dafny

This project models the core of antminer-monitor: the `miners()` view in
`antminermonitor/blueprints/asicminer/views/antminer.py`. On every page load
the view does the following:

1. It polls every configured Antminer.
2. It sorts the miners into active and inactive.
3. For each reachable miner it reads:
   - the worker name from the pool list;
   - the chip-status tally from the `chain_acs` fields;
   - the expected chip total of the model;
   - temperatures and fan speeds;
   - the 5-second hash rate;
   - the hardware-error rate and the uptime.
4. It applies hard-coded threshold rules that flash alerts. Some rules are also
   pushed to Telegram, some set the page-wide `errors` flag, and some record
   a per-miner error message.
5. It accumulates per-model hash-rate totals.
6. It ends with a summary message ("no miners" / "all normal") and the
   normalised totals, with models that total zero left out.

The model is split into five modules:

- `Text` (`text.dfy`): the string operations the view relies on.
  - `str.count` of one character.
  - `key in s`, and the `prefix[0-9]` key test.
  - `int()` and `float()` on text.
  - `split(',')`.
  - Python's string order, used by `sorted`.
- `HashUnits` (`hash_units.dfy`): hash-rate units and an assumed version of
  the normaliser `update_unit_and_value`, whose module is not part of this
  model.
- `Telemetry` (`telemetry.dfy`): everything read out of one reachable miner's
  answers, as `Parse`. Every exception the view does not catch is a
  `Crash(Fault)`.
- `Health` (`health.dfy`): the rules for one miner, as `Evaluate`, giving a
  `Verdict`:
  - the alerts in flash order;
  - whether `errors` is set;
  - the `miner_errors` entry;
  - the temperature cell.
- `Fleet` (`fleet.dfy`): the rest of the view.
  - `Poll` does the per-miner work.
  - `Merge` is one iteration's writes to the page state; `Sweep` folds it over
    the inventory.
  - `RunCycle` is the whole view: the sweep, the summary message and the
    shown totals.

Each answer of `get_stats`, `get_pools` and `get_summary` is an input. The
stats and summary sections are modelled as an ordered list of
`(key, value)` entries, where each value is a number or a string.

The view's own behaviour is kept where it is surprising:

- An unreachable miner sets `errors`, so one dead miner suppresses
  "all normal" (`Fleet.UnreachableBesideHealthy`).
- Temperature alerts and the low-hash-rate warnings do not set `errors`.
- The low-hash-rate thresholds are written into the rules for two models only:
  S9 below 11000 and Z9 bigi below 35.
- The hash-rate fallback reads the summary under the misspelled key
  `'SUMAMRY'`. It can never succeed, so a stats answer without `GHS 5s`
  ends the page.
- A pool list with no active pool raises `IndexError`, which the `except`
  clauses (`KeyError`, `ValueError`) do not catch.
- A model missing from the totals table raises `KeyError`.
- Each of these exceptions ends the whole page, not just the one miner.
- The defective-chip, missing-chip and hash-rate alerts are all pushed to
  Telegram. Only the 90-degree temperature warning is pushed among the
  temperature alerts.
- "All normal" depends only on the `errors` flag. Warnings that do not set it
  can fire on the same page as "all normal".
- The zero test on a temperature reading is applied to the raw value, before
  `int()`. A reading of `0.5` passes the test and becomes `0`.

## Model

| member | source | states |
|---|---|---|
| Text.Occurrences | antminermonitor/blueprints/asicminer/views/antminer.py:126 | `str.count(c)` is at most the length, and zero exactly when `c` does not occur |
| Text.StatusSymbolsBound | antminermonitor/blueprints/asicminer/views/antminer.py:126-136 | the five chip-status symbol counts of one chain together never exceed its length |
| Text.ParseIntDecimal | antminermonitor/blueprints/asicminer/views/antminer.py:140 | `int()` reads back any decimal rendering of a number, with or without a minus sign |
| Text.SplitJoin | antminermonitor/blueprints/asicminer/views/antminer.py:140 | `split(',')` undoes a comma join of comma-free pieces |
| Text.ParseRealDecimal | antminermonitor/blueprints/asicminer/views/antminer.py:158 | `float()` reads back the decimal rendering of a whole number |
| Text.AtMostTotal | antminermonitor/blueprints/asicminer/views/antminer.py:144-145 | any two keys are ordered one way or the other |
| Text.AtMostTransitive | antminermonitor/blueprints/asicminer/views/antminer.py:144-145 | the key order used by `sorted` is transitive |
| Text.AtMostAntisymmetric | antminermonitor/blueprints/asicminer/views/antminer.py:144-145 | two keys ordered both ways are equal |
| HashUnits.NormalizeFacts | antminermonitor/blueprints/asicminer/views/antminer.py:189-190 | normalising keeps the unit family, the amount and the sign; zero stays zero; a positive result lies in [1, 1000) unless the family has no further unit |
| HashUnits.NormalizeIdempotent | antminermonitor/blueprints/asicminer/views/antminer.py:296-298 | normalising a normalised value changes nothing |
| HashUnits.NormalizeExamples | antminermonitor/blueprints/asicminer/views/antminer.py:296-298 | zero is returned unchanged; 1500 KH/s is 1.5 MH/s; 13500 GH/s is 13.5 TH/s |
| Telemetry.Lookup | antminermonitor/blueprints/asicminer/views/antminer.py:166 | a key lookup fails exactly when no entry has the key, and otherwise returns the value of an entry with that key |
| Telemetry.SelectWorker | antminermonitor/blueprints/asicminer/views/antminer.py:110-118 | raises exactly when no pool is active; otherwise gives the user of the first active pool, or "" when that pool has no user |
| Telemetry.Filter | antminermonitor/blueprints/asicminer/views/antminer.py:120-124 | a comprehension with a condition keeps exactly the accepted elements and is no longer than its input |
| Telemetry.FilterAppend | antminermonitor/blueprints/asicminer/views/antminer.py:120-124 | filtering a concatenation is concatenating the filtered parts |
| Telemetry.FilterCount | antminermonitor/blueprints/asicminer/views/antminer.py:143-147 | filtering keeps each accepted element as many times as it occurs and drops the others |
| Telemetry.FilterPermutation | antminermonitor/blueprints/asicminer/views/antminer.py:143-147 | filtering two permutations of each other gives permutations of each other |
| Telemetry.FilterKeepsSorted | antminermonitor/blueprints/asicminer/views/antminer.py:143-147 | filtering the sorted keys keeps them sorted |
| Telemetry.Insert | antminermonitor/blueprints/asicminer/views/antminer.py:144-145 | inserting into a sorted list keeps it sorted and adds exactly the one entry |
| Telemetry.SortByKey | antminermonitor/blueprints/asicminer/views/antminer.py:144-145 | `sorted` by key yields a key-ordered permutation of the entries |
| Telemetry.ChainTexts | antminermonitor/blueprints/asicminer/views/antminer.py:120-124 | one text per field whose key contains `chain_acs`: the k-th text is the text of the k-th such field in answer order |
| Telemetry.CountChipStatus | antminermonitor/blueprints/asicminer/views/antminer.py:126-137 | the counting loop, written as one pass over every character of every chain, yields the per-symbol sums over all chains that `Parse` uses |
| Telemetry.SumOccurrencesAppend | antminermonitor/blueprints/asicminer/views/antminer.py:126-137 | per-symbol sums over two groups of chains add up |
| Telemetry.ChipStatusBound | antminermonitor/blueprints/asicminer/views/antminer.py:126-137 | working, defective, warming and inactive chips together never exceed the characters of all chains |
| Telemetry.ChainExample | antminermonitor/blueprints/asicminer/views/antminer.py:126-137 | the chain "ooox--C" has 3 working, 1 defective, 1 warming (`C`) and 2 inactive chips |
| Telemetry.ParseAll | antminermonitor/blueprints/asicminer/views/antminer.py:140 | `int()` of every piece succeeds exactly when each piece parses, and gives each piece's value |
| Telemetry.TotalChips | antminermonitor/blueprints/asicminer/views/antminer.py:140-141 | the chip total raises exactly when some comma-separated piece is not an integer |
| Telemetry.TotalChipsOfList | antminermonitor/blueprints/asicminer/views/antminer.py:140-141 | a chips list written as comma-separated board counts totals their sum |
| Telemetry.SensorFields | antminermonitor/blueprints/asicminer/views/antminer.py:143-147 | the sensor fields, in key order, are exactly the entries whose key has the prefix followed by a digit and whose value is not the number 0, each such entry once (a permutation of the filtered answer) |
| Telemetry.ConvertAll | antminermonitor/blueprints/asicminer/views/antminer.py:144 | `int()` of every reading raises exactly when some reading does not convert, and otherwise gives each reading's value in order |
| Telemetry.Temperatures | antminermonitor/blueprints/asicminer/views/antminer.py:143-148 | the temperatures are `int()` of the sensor fields in key order, and raise exactly when one does not convert |
| Telemetry.TemperaturesHaveNoZero | antminermonitor/blueprints/asicminer/views/antminer.py:143-148 | with whole-number readings, no reported temperature is 0 |
| Telemetry.FanSpeeds | antminermonitor/blueprints/asicminer/views/antminer.py:150-155 | one fan speed per sensor field with the `fan` prefix, in ascending key order, each the field's raw value; none is the number 0 |
| Telemetry.HashRate5s | antminermonitor/blueprints/asicminer/views/antminer.py:157-163 | raises exactly when `GHS 5s` is missing, because of the `SUMAMRY` key; a number is taken as is, unparsable text gives 0 |
| Telemetry.HardwareErrorRate | antminermonitor/blueprints/asicminer/views/antminer.py:165-172 | taken from the stats, else from the summary; raises exactly when both lack it |
| Telemetry.Uptime | antminermonitor/blueprints/asicminer/views/antminer.py:174 | succeeds exactly when `Elapsed` is a number, and gives that number of seconds |
| Telemetry.Parse | antminermonitor/blueprints/asicminer/views/antminer.py:108-174 | the readings of a miner exist exactly when no extraction step raises; then the worker, chip tally over the `chain_acs` fields, chip total, temperatures, fans, 5-second hash rate, hardware-error rate and uptime are each that step's result |
| Health.Max | antminermonitor/blueprints/asicminer/views/antminer.py:231 | `max(temps)` bounds every reading and is one of them |
| Health.KindsSelected | antminermonitor/blueprints/asicminer/views/antminer.py:198-266 | the alerts of each rule group are exactly that group's rule output, in flash order |
| Health.DefectiveChipsRule | antminermonitor/blueprints/asicminer/views/antminer.py:198-205 | defective chips give exactly one escalated warning and set `errors` |
| Health.MissingChipsRule | antminermonitor/blueprints/asicminer/views/antminer.py:206-215 | fewer working plus defective chips than the total give exactly one escalated error naming present/total, and set `errors` |
| Health.WarmingIgnored | antminermonitor/blueprints/asicminer/views/antminer.py:216-229 | the `B` and `C` counts change nothing in the verdict |
| Health.TemperatureRules | antminermonitor/blueprints/asicminer/views/antminer.py:230-247 | at most one temperature alert: none exactly when the hottest reading is below 85, a warning exactly for a hottest reading in [85, 90), an escalated one exactly from 90, an error exactly when there are no readings, which is also exactly when the 0 sentinel is shown |
| Health.TemperatureNeverRaisesErrors | antminermonitor/blueprints/asicminer/views/antminer.py:230-247 | changing the temperatures never changes the `errors` contribution |
| Health.HashRateRules | antminermonitor/blueprints/asicminer/views/antminer.py:248-266 | at most one hash-rate alert: zero is exactly the escalated error, which sets `errors`; an S9 below 11000 or a Z9 bigi below 35 is exactly the escalated warning; any other model or rate gets no hash-rate alert; for a non-zero rate, `errors` depends on the chip rules alone |
| Health.PerMinerAlerts | antminermonitor/blueprints/asicminer/views/antminer.py:198-266 | every rule alert names its miner and none is a summary message |
| Health.RaisesErrorsIffAlert | antminermonitor/blueprints/asicminer/views/antminer.py:198-266 | a miner sets `errors` exactly when a defective-chip, missing-chip or zero-hash-rate alert fired |
| Health.LastWhere | antminermonitor/blueprints/asicminer/views/antminer.py:204-264 | the stored `miner_errors` message is one that a recording rule wrote, and there is none exactly when no recording rule fired |
| Health.LastWhereIsLast | antminermonitor/blueprints/asicminer/views/antminer.py:204-264 | the stored message is the last one a recording rule wrote, since later assignments overwrite earlier ones |
| Fleet.Assess | antminermonitor/blueprints/asicminer/views/antminer.py:189-190 | a reachable miner is assessed exactly when it parses and its model has a totals entry; an unknown model raises after the readings are taken; the assessment holds the parsed readings and the rules' verdict on them |
| Fleet.Poll | antminermonitor/blueprints/asicminer/views/antminer.py:101-195 | a miner is down exactly when its stats answer is an error, raises exactly when its assessment raises, and otherwise carries the readings parsed from its own answers and the rules' verdict on them |
| Fleet.Merge | antminermonitor/blueprints/asicminer/views/antminer.py:176-195 | one iteration keeps the totals table's models and raises exactly for a miner that raised |
| Fleet.MergeShowsCells | antminermonitor/blueprints/asicminer/views/antminer.py:176-193 | one iteration writes the reachable miner's worker, chips, temperature cell, fans, normalised hash rate, hardware-error rate and uptime into its row |
| Fleet.MergeKeepsCells | antminermonitor/blueprints/asicminer/views/antminer.py:176-193 | one iteration leaves the rows of every other address unchanged |
| Fleet.MergeRecords | antminermonitor/blueprints/asicminer/views/antminer.py:204-264 | one iteration overwrites `miner_errors` only for its own address, and only when a recording rule fired |
| Fleet.LastUp | antminermonitor/blueprints/asicminer/views/antminer.py:176-193 | the last reachable outcome for an address exists exactly when the address is active, and is a reachable outcome with that address |
| Fleet.LastRecorded | antminermonitor/blueprints/asicminer/views/antminer.py:204-264 | a last recorded message for an address exists exactly when some reachable miner with that address fired a recording rule |
| Fleet.SweepCrashes | antminermonitor/blueprints/asicminer/views/antminer.py:101-195 | the loop completes exactly when no miner raised |
| Fleet.SweepPartitions | antminermonitor/blueprints/asicminer/views/antminer.py:101-195 | active and inactive lists are the reachable and unreachable miners in inventory order, and together hold every miner |
| Fleet.MatchingPartition | antminermonitor/blueprints/asicminer/views/antminer.py:104-106 | outcomes that match the inventory sort its miners by their stats status |
| Fleet.PolledPartition | antminermonitor/blueprints/asicminer/views/antminer.py:104-106 | when no miner raises, the active list holds exactly the miners whose stats answer is not an error, the inactive list the others |
| Fleet.MergeKeys | antminermonitor/blueprints/asicminer/views/antminer.py:176-188 | one iteration adds the miner to the worker, chip, temperature and fan maps exactly when reachable |
| Fleet.MergeMoreKeys | antminermonitor/blueprints/asicminer/views/antminer.py:189-264 | one iteration adds the miner to the hash-rate, hardware-error and uptime maps exactly when reachable, and to `miner_errors` only when a recording rule fired |
| Fleet.SweepKeys | antminermonitor/blueprints/asicminer/views/antminer.py:176-193 | every per-miner map is keyed by exactly the active miners; `miner_errors` by exactly the active miners with a recorded message |
| Fleet.SweepCells | antminermonitor/blueprints/asicminer/views/antminer.py:176-264 | after the loop, every cell of an active address's row holds the readings and verdict of the last reachable miner with that address, and its `miner_errors` entry is the last message a recording rule wrote for it |
| Fleet.SweepErrors | antminermonitor/blueprints/asicminer/views/antminer.py:101-266 | `errors` ends set exactly when some miner is unreachable or fired a rule that sets it |
| Fleet.SweepTotals | antminermonitor/blueprints/asicminer/views/antminer.py:194 | each model's total is the sum of its active miners' 5-second hash rates |
| Fleet.SweepAlertsPerMiner | antminermonitor/blueprints/asicminer/views/antminer.py:198-266 | every alert of the loop names a miner; no summary message is flashed inside the loop |
| Fleet.SweepAlerts | antminermonitor/blueprints/asicminer/views/antminer.py:101-266 | the loop flashes exactly the reachable miners' rule alerts, joined in inventory order, each naming an active miner |
| Fleet.ShownTotals | antminermonitor/blueprints/asicminer/views/antminer.py:294-301 | exactly the models with a positive total are shown, each normalised within its unit family without changing the amount |
| Fleet.RunCycleCrashes | antminermonitor/blueprints/asicminer/views/antminer.py:101-195 | the page is rendered exactly when no miner's handling raised |
| Fleet.EmptyInventory | antminermonitor/blueprints/asicminer/views/antminer.py:276-280 | with no miners the page has no miners, no shown totals, and the single "no miners" message |
| Fleet.SummaryAfterSweep | antminermonitor/blueprints/asicminer/views/antminer.py:276-285 | after the loop over a non-empty inventory, the "all normal" alerts are exactly one non-escalated, page-wide info message when nothing set `errors`, and none otherwise; "no miners" never appears |
| Fleet.AllNormalIffNoErrors | antminermonitor/blueprints/asicminer/views/antminer.py:276-285 | for a non-empty inventory, the page holds exactly one non-escalated, page-wide info "all normal" message when no miner is unreachable or fired a rule that sets `errors`, and none otherwise |
| Fleet.ShownTotalsArePositive | antminermonitor/blueprints/asicminer/views/antminer.py:294-301 | a model is shown exactly when its active miners' hash rates sum to more than zero |
| Fleet.PageCells | antminermonitor/blueprints/asicminer/views/antminer.py:176-247 | on the rendered page each active address's row shows the last reachable miner with that address, and its temperature cell is the readings or the `0` sentinel when there are none |
| Fleet.PageAlerts | antminermonitor/blueprints/asicminer/views/antminer.py:198-285 | the page's alerts are the reachable miners' rule alerts in inventory order followed by at most one page-wide message; the rest of the report is the loop's |
| Fleet.UnreachableBesideHealthy | antminermonitor/blueprints/asicminer/views/antminer.py:101-301 | one unreachable miner beside a healthy S9 at 13500 GH/s: no rule alert, S9 shown as 13.5 TH/s, and no "all normal", because unreachability sets `errors` |

## Left out

- Flask: routing, `login_required`, `flash`, `render_template` and the logger. Flashing is modelled as the ordered alert list.
- `telegram_send`: only whether a message is pushed is kept, as the `escalated` flag of an alert.
- `get_stats`, `get_pools` and `get_summary`: these are network calls. Their answers are inputs, and a stats answer whose status is `error` is `Unreachable`.
- `time.clock()` and the loading time: these depend on the clock.
- The database queries for miners and models: the inventory is an input, and the model list is only passed on to the template.
- `add_miner` and `delete_miner`: these are database writes outside the refresh cycle.
- `config/settings.py`: no setting is read by the modelled view.
- lib/util_hashrate is not part of this model. `HashUnits.Normalize` is an assumed behaviour: steps of 1000 within a unit family, up above 1000 and down below 1, up to the exa scale, and zero returned unchanged.
- HashUnits.NormalizeFacts: states the assumed normaliser, not `update_unit_and_value` itself. The per-miner hash-rate cell (`Fleet.Merge`) and the value and unit of each shown total (`Fleet.ShownTotals`) depend on that assumption. Only the zero-suppression of totals relies on nothing but the sign being kept.
- String formatting of the hash rates, the totals and the messages. Alerts carry their kind and the numbers they would print.
- Floating point: numbers are reals, so rounding is not modelled.
- Numeric syntax: `float()` accepts only digits with an optional sign and fraction, with no exponent, `inf` or `nan`. `int()` accepts no whitespace or underscores.
- `str()` of a number: for a numeric `chain_acs` value only its minus sign is kept. That is the only status symbol such a text can contain, apart from `e`-notation.
- `re.search`: the temperature prefix of a model is matched literally, not as a regular expression.
- The structure of the answers: `STATUS`, `STATS[1]`, `POOLS` and the `Stratum Active` flag are assumed present. Keys are assumed unique.
- The `except ValueError` branch at line 171 cannot be reached by a dictionary lookup, and is not modelled.
- Telemetry.TemperaturesHaveNoZero: stated only for whole-number readings, because the view tests for zero before `int()` truncates.
- Fleet.UnreachableBesideHealthy: stated over the polled outcomes and the loop, not over raw answers. `Fleet.PageAlerts` ties the loop to the page.

=== FILE: fleet.dfy ===
/**
 One refresh of the miners page: the loop over the inventory that splits
 miners into active and inactive, fills the per-miner maps, accumulates the
 per-model hash-rate totals and flashes the rule alerts, followed by the
 page-wide summary message and the normalised, zero-suppressed totals.
 The answers of `get_stats`, `get_pools` and `get_summary` are inputs.
 */
module Fleet {
  import opened Text
  import opened HashUnits
  import opened Telemetry
  import opened Health

  /** The view's fixed table of per-model totals with their display units. */
  const ModelUnits: map<string, Unit> := map[
    "L3+" := MHs, "S7" := GHs, "S9" := GHs, "S9_broken" := GHs, "D3" := MHs,
    "T9" := GHs, "T9+" := GHs, "A3" := GHs, "L3" := MHs, "R4" := THs,
    "V9" := GHs, "X3" := KHs, "Z9 mini" := KSols, "Z9 bigi" := KSols, "E3" := MHs]

  /** What polling one miner gave: a stats answer whose status is `error`, or
      the stats, pools and summary answers of a reachable miner. */
  datatype Probe = Unreachable | Reachable(stats: Stats, pools: seq<Pool>, summary: Stats)

  datatype Polled = Polled(miner: Miner, probe: Probe)

  /** The `miner_chips` cell: working, defective and inactive chips, and the
      model's expected total. */
  datatype ChipSummary = ChipSummary(ok: nat, defective: nat, inactive: nat, total: int)

  datatype Assessment = Assessment(reading: Reading, verdict: Verdict)

  /** Reading a reachable miner and applying the rules to it; a model missing
      from the totals table is a `KeyError` once the readings are taken. */
  function Assess(m: Miner, stats: Stats, pools: seq<Pool>, summary: Stats): (r: Result<Assessment>)
    ensures r.Ok? <==> Parse(m, stats, pools, summary).Ok? && m.model.name in ModelUnits
    ensures Parse(m, stats, pools, summary).Ok? && m.model.name !in ModelUnits
            ==> r == Crash(UnknownModel(m.ip, m.model.name))
    ensures r.Ok? ==> r.value.reading == Parse(m, stats, pools, summary).value
    ensures r.Ok? ==> r.value.verdict == Evaluate(m.ip, m.model.name, r.value.reading)
  {
    match Parse(m, stats, pools, summary)
    case Crash(f) => Crash(f)
    case Ok(reading) =>
      if m.model.name !in ModelUnits then Crash(UnknownModel(m.ip, m.model.name))
      else Ok(Assessment(reading, Evaluate(m.ip, m.model.name, reading)))
  }

  /** What one miner contributes to the page: nothing but its name in the
      inactive list, its readings and rule verdict, or the exception that ends
      the page. */
  datatype Outcome =
    | Down(miner: Miner)
    | Up(miner: Miner, reading: Reading, verdict: Verdict)
    | Failed(fault: Fault)

  /** The work the loop does for one miner before touching shared state. */
  function Poll(p: Polled): (o: Outcome)
    ensures o.Down? <==> p.probe.Unreachable?
    ensures o.Failed? <==> p.probe.Reachable? && Assess(p.miner, p.probe.stats, p.probe.pools, p.probe.summary).Crash?
    ensures o.Down? || o.Up? ==> o.miner == p.miner
    ensures o.Up? ==> o.miner.model.name in ModelUnits
    ensures o.Up? ==> o.reading == Parse(p.miner, p.probe.stats, p.probe.pools, p.probe.summary).value
    ensures o.Up? ==> o.verdict == Evaluate(p.miner.ip, p.miner.model.name, o.reading)
  {
    match p.probe
    case Unreachable => Down(p.miner)
    case Reachable(stats, pools, summary) =>
      match Assess(p.miner, stats, pools, summary)
      case Ok(a) => Up(p.miner, a.reading, a.verdict)
      case Crash(f) => Failed(f)
  }

  function Polls(inventory: seq<Polled>): (os: seq<Outcome>)
    ensures |os| == |inventory|
    ensures forall k | 0 <= k < |os| :: os[k] == Poll(inventory[k])
  {
    seq(|inventory|, k requires 0 <= k < |inventory| => Poll(inventory[k]))
  }

  /** An outcome the merge can take: a reachable miner's model has a total. */
  predicate Sound(o: Outcome) { o.Up? ==> o.miner.model.name in ModelUnits }

  /** An outcome that sets the page's `errors` flag: an unreachable miner, or
      a rule that sets it fired. */
  predicate SetsErrors(o: Outcome) { o.Down? || (o.Up? && o.verdict.raisesErrors) }

  /** Everything the page shows, as the loop leaves it. */
  datatype Report = Report(
    active: seq<Miner>,
    inactive: seq<Miner>,
    workers: map<string, string>,
    chips: map<string, ChipSummary>,
    temperatures: map<string, TempShown>,
    fans: map<string, seq<Field>>,
    hashRates: map<string, (real, Unit)>,
    hwErrorRates: map<string, Field>,
    uptimes: map<string, real>,
    totals: map<string, real>,
    errors: bool,
    minerErrors: map<string, Alert>,
    alerts: seq<Alert>)

  const Start := Report([], [], map[], map[], map[], map[], map[], map[], map[],
                        map name | name in ModelUnits :: 0.0, false, map[], [])

  /** One iteration of the loop: all writes to the page's shared state. */
  function Merge(rep: Report, o: Outcome): (r: Result<Report>)
    requires rep.totals.Keys == ModelUnits.Keys && Sound(o)
    ensures r.Ok? ==> r.value.totals.Keys == ModelUnits.Keys
    ensures r.Crash? <==> o.Failed?
  {
    match o
    case Failed(f) => Crash(f)
    case Down(m) => Ok(rep.(inactive := rep.inactive + [m], errors := true))
    case Up(m, rd, v) =>
      var ip := m.ip;
      var name := m.model.name;
      Ok(rep.(
        active := rep.active + [m],
        workers := rep.workers[ip := rd.worker],
        chips := rep.chips[ip := ChipSummary(rd.chips.ok, rd.chips.defective, rd.chips.inactive, rd.totalChips)],
        temperatures := rep.temperatures[ip := v.shownTemp],
        fans := rep.fans[ip := rd.fans],
        hashRates := rep.hashRates[ip := Normalize(rd.ghs5s, ModelUnits[name])],
        hwErrorRates := rep.hwErrorRates[ip := rd.hwErrorRate],
        uptimes := rep.uptimes[ip := rd.uptime],
        totals := rep.totals[name := rep.totals[name] + rd.ghs5s],
        errors := rep.errors || v.raisesErrors,
        minerErrors := if v.minerError.Some? then rep.minerErrors[ip := v.minerError.value] else rep.minerErrors,
        alerts := rep.alerts + v.alerts))
  }

  /** The loop over the whole inventory, in inventory order. */
  function Sweep(outcomes: seq<Outcome>): (r: Result<Report>)
    requires forall k | 0 <= k < |outcomes| :: Sound(outcomes[k])
    ensures r.Ok? ==> r.value.totals.Keys == ModelUnits.Keys
    decreases |outcomes|
  {
    if |outcomes| == 0 then Ok(Start)
    else
      match Sweep(outcomes[..|outcomes| - 1])
      case Crash(f) => Crash(f)
      case Ok(rep) => Merge(rep, outcomes[|outcomes| - 1])
  }

  // ------------------------------------------------------- reference sums

  /** The miners of the reachable outcomes, in inventory order. */
  function ActiveMiners(outcomes: seq<Outcome>): seq<Miner>
  {
    if |outcomes| == 0 then []
    else
      var last := outcomes[|outcomes| - 1];
      ActiveMiners(outcomes[..|outcomes| - 1]) + (if last.Up? then [last.miner] else [])
  }

  /** The miners of the unreachable outcomes, in inventory order. */
  function InactiveMiners(outcomes: seq<Outcome>): seq<Miner>
  {
    if |outcomes| == 0 then []
    else
      var last := outcomes[|outcomes| - 1];
      InactiveMiners(outcomes[..|outcomes| - 1]) + (if last.Down? then [last.miner] else [])
  }

  /** The 5-second hash rate an outcome adds to model `name`'s total. */
  function Contribution(o: Outcome, name: string): real
  {
    if o.Up? && o.miner.model.name == name then o.reading.ghs5s else 0.0
  }

  /** The sum of the contributions of all outcomes to model `name`. */
  function ModelTotal(outcomes: seq<Outcome>, name: string): real
  {
    if |outcomes| == 0 then 0.0
    else ModelTotal(outcomes[..|outcomes| - 1], name) + Contribution(outcomes[|outcomes| - 1], name)
  }

  /** The addresses of the reachable miners. */
  function ActiveIps(outcomes: seq<Outcome>): set<string>
  {
    if |outcomes| == 0 then {}
    else
      var last := outcomes[|outcomes| - 1];
      ActiveIps(outcomes[..|outcomes| - 1]) + (if last.Up? then {last.miner.ip} else {})
  }

  /** The addresses of the reachable miners for which a recorded rule fired. */
  function RecordedIps(outcomes: seq<Outcome>): set<string>
  {
    if |outcomes| == 0 then {}
    else
      var last := outcomes[|outcomes| - 1];
      RecordedIps(outcomes[..|outcomes| - 1])
        + (if last.Up? && last.verdict.minerError.Some? then {last.miner.ip} else {})
  }

  /** The last reachable outcome for address `ip`: the one whose writes the
      page shows for that address. */
  function LastUp(outcomes: seq<Outcome>, ip: string): (r: Option<Outcome>)
    ensures r.Some? ==> r.value.Up? && r.value.miner.ip == ip && r.value in outcomes
    ensures r.Some? <==> ip in ActiveIps(outcomes)
  {
    if |outcomes| == 0 then None
    else
      var last := outcomes[|outcomes| - 1];
      if last.Up? && last.miner.ip == ip then Some(last)
      else
        var r := LastUp(outcomes[..|outcomes| - 1], ip);
        assert r.Some? ==> r.value in outcomes[..|outcomes| - 1];
        r
  }

  /** The last message a recording rule wrote for address `ip`. */
  function LastRecorded(outcomes: seq<Outcome>, ip: string): (r: Option<Alert>)
    ensures r.Some? <==> ip in RecordedIps(outcomes)
  {
    if |outcomes| == 0 then None
    else
      var last := outcomes[|outcomes| - 1];
      if last.Up? && last.miner.ip == ip && last.verdict.minerError.Some? then last.verdict.minerError
      else LastRecorded(outcomes[..|outcomes| - 1], ip)
  }

  /** The cells of the page's row for `o`'s address hold `o`'s readings and verdict. */
  predicate ShowsCells(rep: Report, o: Outcome)
  {
    o.Up? && o.miner.model.name in ModelUnits &&
    var ip := o.miner.ip;
    && ip in rep.workers && rep.workers[ip] == o.reading.worker
    && ip in rep.chips
    && rep.chips[ip] == ChipSummary(o.reading.chips.ok, o.reading.chips.defective,
                                    o.reading.chips.inactive, o.reading.totalChips)
    && ip in rep.temperatures && rep.temperatures[ip] == o.verdict.shownTemp
    && ip in rep.fans && rep.fans[ip] == o.reading.fans
    && ip in rep.hashRates && rep.hashRates[ip] == Normalize(o.reading.ghs5s, ModelUnits[o.miner.model.name])
    && ip in rep.hwErrorRates && rep.hwErrorRates[ip] == o.reading.hwErrorRate
    && ip in rep.uptimes && rep.uptimes[ip] == o.reading.uptime
  }

  /** The `miner_errors` entry of `ip`, if any. */
  function RecordedAt(rep: Report, ip: string): Option<Alert>
  {
    if ip in rep.minerErrors then Some(rep.minerErrors[ip]) else None
  }

  // --------------------------------------------------------- loop lemmas

  /** The loop completes exactly when no miner raised; one miner's exception
      ends the whole page. */
  lemma {:induction false} SweepCrashes(outcomes: seq<Outcome>)
    requires forall k | 0 <= k < |outcomes| :: Sound(outcomes[k])
    ensures Sweep(outcomes).Crash? <==> exists k | 0 <= k < |outcomes| :: outcomes[k].Failed?
    decreases |outcomes|
  {
    if |outcomes| > 0 {
      var prefix := outcomes[..|outcomes| - 1];
      SweepCrashes(prefix);
      assert forall k | 0 <= k < |prefix| :: prefix[k] == outcomes[k];
      assert outcomes[|outcomes| - 1] == outcomes[|prefix|];
    }
  }

  /** Splitting the outcomes into the last one and the rest. */
  lemma LastMerge(outcomes: seq<Outcome>, rep: Report) returns (prefix: seq<Outcome>, last: Outcome, prev: Report)
    requires forall k | 0 <= k < |outcomes| :: Sound(outcomes[k])
    requires |outcomes| > 0 && Sweep(outcomes) == Ok(rep)
    ensures outcomes == prefix + [last] && prefix == outcomes[..|outcomes| - 1]
    ensures forall k | 0 <= k < |prefix| :: Sound(prefix[k])
    ensures Sound(last) && !last.Failed?
    ensures Sweep(prefix) == Ok(prev) && prev.totals.Keys == ModelUnits.Keys
    ensures Merge(prev, last) == Ok(rep)
  {
    prefix := outcomes[..|outcomes| - 1];
    last := outcomes[|outcomes| - 1];
    assert outcomes == prefix + [last];
    prev := Sweep(prefix).value;
  }

  /** Every miner lands in exactly one of the two lists, each keeping
      inventory order. */
  lemma {:induction false} SweepPartitions(outcomes: seq<Outcome>, rep: Report)
    requires forall k | 0 <= k < |outcomes| :: Sound(outcomes[k])
    requires Sweep(outcomes) == Ok(rep)
    ensures rep.active == ActiveMiners(outcomes)
    ensures rep.inactive == InactiveMiners(outcomes)
    ensures |rep.active| + |rep.inactive| == |outcomes|
    decreases |outcomes|
  {
    if |outcomes| > 0 {
      var prefix, last, prev := LastMerge(outcomes, rep);
      SweepPartitions(prefix, prev);
    }
  }

  /** The per-miner maps have a key for every active miner and no other;
      `miner_errors` only for the miners whose recorded rules fired. */
  lemma {:induction false} SweepKeys(outcomes: seq<Outcome>, rep: Report)
    requires forall k | 0 <= k < |outcomes| :: Sound(outcomes[k])
    requires Sweep(outcomes) == Ok(rep)
    ensures rep.workers.Keys == ActiveIps(outcomes)
    ensures rep.chips.Keys == ActiveIps(outcomes)
    ensures rep.temperatures.Keys == ActiveIps(outcomes)
    ensures rep.fans.Keys == ActiveIps(outcomes)
    ensures rep.hashRates.Keys == ActiveIps(outcomes)
    ensures rep.hwErrorRates.Keys == ActiveIps(outcomes)
    ensures rep.uptimes.Keys == ActiveIps(outcomes)
    ensures rep.minerErrors.Keys == RecordedIps(outcomes)
    decreases |outcomes|
  {
    if |outcomes| > 0 {
      var prefix, last, prev := LastMerge(outcomes, rep);
      SweepKeys(prefix, prev);
      MergeKeys(prev, last, rep);
      MergeMoreKeys(prev, last, rep);
    }
  }

  /** One iteration adds the miner's address to the worker, chip,
      temperature and fan maps exactly when it is reachable. */
  lemma MergeKeys(prev: Report, o: Outcome, rep: Report)
    requires prev.totals.Keys == ModelUnits.Keys && Sound(o)
    requires Merge(prev, o) == Ok(rep)
    ensures var added := if o.Up? then {o.miner.ip} else {};
      && rep.workers.Keys == prev.workers.Keys + added
      && rep.chips.Keys == prev.chips.Keys + added
      && rep.temperatures.Keys == prev.temperatures.Keys + added
      && rep.fans.Keys == prev.fans.Keys + added
  {
  }

  /** One iteration adds the miner's address to the hash-rate, hardware-error
      and uptime maps exactly when it is reachable, and to `miner_errors` only
      when a recorded rule fired. */
  lemma MergeMoreKeys(prev: Report, o: Outcome, rep: Report)
    requires prev.totals.Keys == ModelUnits.Keys && Sound(o)
    requires Merge(prev, o) == Ok(rep)
    ensures var added := if o.Up? then {o.miner.ip} else {};
      && rep.hashRates.Keys == prev.hashRates.Keys + added
      && rep.hwErrorRates.Keys == prev.hwErrorRates.Keys + added
      && rep.uptimes.Keys == prev.uptimes.Keys + added
    ensures rep.minerErrors.Keys
         == prev.minerErrors.Keys + (if o.Up? && o.verdict.minerError.Some? then {o.miner.ip} else {})
  {
  }

  /** Every cell of an address's row shows the readings and verdict of the
      last reachable miner with that address, and its `miner_errors` entry is
      the last message a recording rule wrote for it. */
  lemma {:induction false} SweepCells(outcomes: seq<Outcome>, rep: Report)
    requires forall k | 0 <= k < |outcomes| :: Sound(outcomes[k])
    requires Sweep(outcomes) == Ok(rep)
    ensures forall ip | LastUp(outcomes, ip).Some? :: ShowsCells(rep, LastUp(outcomes, ip).value)
    ensures forall ip :: RecordedAt(rep, ip) == LastRecorded(outcomes, ip)
    decreases |outcomes|
  {
    if |outcomes| > 0 {
      var prefix, last, prev := LastMerge(outcomes, rep);
      SweepCells(prefix, prev);
      forall ip | LastUp(outcomes, ip).Some?
        ensures ShowsCells(rep, LastUp(outcomes, ip).value)
      {
        if last.Up? && last.miner.ip == ip {
          MergeShowsCells(prev, last, rep);
        } else {
          MergeKeepsCells(prev, last, rep, LastUp(prefix, ip).value);
        }
      }
      forall ip
        ensures RecordedAt(rep, ip) == LastRecorded(outcomes, ip)
      {
        MergeRecords(prev, last, rep, ip);
      }
    }
  }

  /** One iteration writes the reachable miner's own row. */
  lemma MergeShowsCells(prev: Report, o: Outcome, rep: Report)
    requires prev.totals.Keys == ModelUnits.Keys && Sound(o) && o.Up?
    requires Merge(prev, o) == Ok(rep)
    ensures ShowsCells(rep, o)
  {
  }

  /** One iteration leaves the rows of other addresses alone. */
  lemma MergeKeepsCells(prev: Report, last: Outcome, rep: Report, o: Outcome)
    requires prev.totals.Keys == ModelUnits.Keys && Sound(last)
    requires Merge(prev, last) == Ok(rep)
    requires ShowsCells(prev, o) && !(last.Up? && last.miner.ip == o.miner.ip)
    ensures ShowsCells(rep, o)
  {
  }

  /** One iteration overwrites `miner_errors` only for its own address, and
      only when a recording rule fired. */
  lemma MergeRecords(prev: Report, last: Outcome, rep: Report, ip: string)
    requires prev.totals.Keys == ModelUnits.Keys && Sound(last)
    requires Merge(prev, last) == Ok(rep)
    ensures RecordedAt(rep, ip)
         == if last.Up? && last.miner.ip == ip && last.verdict.minerError.Some?
            then last.verdict.minerError else RecordedAt(prev, ip)
  {
  }

  /** `errors` ends up set exactly when some miner is unreachable or fired a
      rule that sets it. */
  lemma {:induction false} SweepErrors(outcomes: seq<Outcome>, rep: Report)
    requires forall k | 0 <= k < |outcomes| :: Sound(outcomes[k])
    requires Sweep(outcomes) == Ok(rep)
    ensures rep.errors <==> exists k | 0 <= k < |outcomes| :: SetsErrors(outcomes[k])
    decreases |outcomes|
  {
    if |outcomes| > 0 {
      var prefix, last, prev := LastMerge(outcomes, rep);
      SweepErrors(prefix, prev);
      assert forall k | 0 <= k < |prefix| :: prefix[k] == outcomes[k];
      assert last == outcomes[|prefix|];
    }
  }

  /** Each model's total is the sum of the 5-second hash rates of its active
      miners. */
  lemma {:induction false} SweepTotals(outcomes: seq<Outcome>, rep: Report)
    requires forall k | 0 <= k < |outcomes| :: Sound(outcomes[k])
    requires Sweep(outcomes) == Ok(rep)
    ensures forall name | name in ModelUnits :: rep.totals[name] == ModelTotal(outcomes, name)
    decreases |outcomes|
  {
    if |outcomes| > 0 {
      var prefix, last, prev := LastMerge(outcomes, rep);
      SweepTotals(prefix, prev);
    }
  }

  /** Every alert of the loop is the alert of an active miner, and none is a
      page-wide summary. */
  lemma {:induction false} SweepAlertsPerMiner(outcomes: seq<Outcome>, rep: Report)
    requires forall k | 0 <= k < |outcomes| :: Sound(outcomes[k])
    requires forall k | 0 <= k < |outcomes| :: outcomes[k].Up? ==>
      outcomes[k].verdict == Evaluate(outcomes[k].miner.ip, outcomes[k].miner.model.name, outcomes[k].reading)
    requires Sweep(outcomes) == Ok(rep)
    ensures forall a | a in rep.alerts :: a.ip.Some? && !IsSummary(a)
    decreases |outcomes|
  {
    if |outcomes| > 0 {
      var prefix, last, prev := LastMerge(outcomes, rep);
      assert last == outcomes[|prefix|];
      assert forall k | 0 <= k < |prefix| :: prefix[k] == outcomes[k];
      SweepAlertsPerMiner(prefix, prev);
      if last.Up? {
        PerMinerAlerts(last.miner.ip, last.miner.model.name, last.reading);
      }
    }
  }

  /** The rule alerts of the reachable outcomes, joined in inventory order. */
  function LoopAlerts(outcomes: seq<Outcome>): seq<Alert>
  {
    if |outcomes| == 0 then []
    else
      var last := outcomes[|outcomes| - 1];
      LoopAlerts(outcomes[..|outcomes| - 1]) + (if last.Up? then last.verdict.alerts else [])
  }

  /** The alerts the loop flashes are the reachable miners' rule alerts in
      inventory order, and each names one of the active miners. */
  lemma {:induction false} SweepAlerts(outcomes: seq<Outcome>, rep: Report)
    requires forall k | 0 <= k < |outcomes| :: Sound(outcomes[k])
    requires forall k | 0 <= k < |outcomes| :: outcomes[k].Up? ==>
      outcomes[k].verdict == Evaluate(outcomes[k].miner.ip, outcomes[k].miner.model.name, outcomes[k].reading)
    requires Sweep(outcomes) == Ok(rep)
    ensures rep.alerts == LoopAlerts(outcomes)
    ensures forall a | a in rep.alerts :: a.ip.Some? && a.ip.value in ActiveIps(outcomes)
    decreases |outcomes|
  {
    if |outcomes| > 0 {
      var prefix, last, prev := LastMerge(outcomes, rep);
      assert last == outcomes[|prefix|];
      assert forall k | 0 <= k < |prefix| :: prefix[k] == outcomes[k];
      SweepAlerts(prefix, prev);
      if last.Up? {
        PerMinerAlerts(last.miner.ip, last.miner.model.name, last.reading);
        assert rep.alerts == prev.alerts + last.verdict.alerts;
      } else {
        assert rep.alerts == prev.alerts;
      }
    }
  }

  /** The miners whose stats answer was not an error, in inventory order. */
  function ReachableMiners(inventory: seq<Polled>): seq<Miner>
  {
    if |inventory| == 0 then []
    else
      var last := inventory[|inventory| - 1];
      ReachableMiners(inventory[..|inventory| - 1]) + (if last.probe.Reachable? then [last.miner] else [])
  }

  /** The miners whose stats answer was an error, in inventory order. */
  function UnreachableMiners(inventory: seq<Polled>): seq<Miner>
  {
    if |inventory| == 0 then []
    else
      var last := inventory[|inventory| - 1];
      UnreachableMiners(inventory[..|inventory| - 1]) + (if last.probe.Unreachable? then [last.miner] else [])
  }

  /** An outcome that did not raise belongs to the polled miner and is
      `Down` exactly when the miner was unreachable. */
  predicate Matches(o: Outcome, p: Polled)
  {
    !o.Failed? && o.miner == p.miner && (o.Down? <==> p.probe.Unreachable?)
  }

  lemma {:induction false} MatchingPartition(outcomes: seq<Outcome>, inventory: seq<Polled>)
    requires |outcomes| == |inventory|
    requires forall k | 0 <= k < |outcomes| :: Matches(outcomes[k], inventory[k])
    ensures ActiveMiners(outcomes) == ReachableMiners(inventory)
    ensures InactiveMiners(outcomes) == UnreachableMiners(inventory)
    decreases |inventory|
  {
    if |inventory| > 0 {
      var n := |inventory| - 1;
      assert forall k | 0 <= k < n :: outcomes[..n][k] == outcomes[k] && inventory[..n][k] == inventory[k];
      MatchingPartition(outcomes[..n], inventory[..n]);
      assert Matches(outcomes[n], inventory[n]);
    }
  }

  /** When no miner raises, the active list is exactly the reachable miners
      and the inactive list exactly the unreachable ones. */
  lemma PolledPartition(inventory: seq<Polled>)
    requires forall k | 0 <= k < |inventory| :: !Poll(inventory[k]).Failed?
    ensures ActiveMiners(Polls(inventory)) == ReachableMiners(inventory)
    ensures InactiveMiners(Polls(inventory)) == UnreachableMiners(inventory)
  {
    var outcomes := Polls(inventory);
    forall k | 0 <= k < |outcomes|
      ensures Matches(outcomes[k], inventory[k])
    {
      assert outcomes[k] == Poll(inventory[k]);
    }
    MatchingPartition(outcomes, inventory);
  }

  // ---------------------------------------------------------- the page

  /** "All normal": an info message for the whole page, never pushed to Telegram. */
  const AllNormalInfo := Alert(AllNormal, Info, None, false)

  /** The page-wide message flashed after the loop. */
  function SummaryAlerts(inventory: seq<Polled>, errors: bool): seq<Alert>
  {
    if |inventory| == 0 then [Alert(NoMiners, Info, None, false)]
    else if !errors then [AllNormalInfo]
    else []
  }

  /** The per-model totals shown: normalised, and only those above zero. */
  function ShownTotals(totals: map<string, real>): (shown: map<string, (real, Unit)>)
    requires totals.Keys == ModelUnits.Keys
    ensures shown.Keys == set name | name in ModelUnits && totals[name] > 0.0
    ensures forall name | name in shown ::
      && shown[name].1.family == ModelUnits[name].family
      && Magnitude(shown[name].0, shown[name].1) == Magnitude(totals[name], ModelUnits[name])
  {
    forall name | name in ModelUnits {
      NormalizeFacts(totals[name], ModelUnits[name]);
    }
    map name | name in ModelUnits && Normalize(totals[name], ModelUnits[name]).0 > 0.0
      :: Normalize(totals[name], ModelUnits[name])
  }

  datatype Page = Page(report: Report, shownTotals: map<string, (real, Unit)>)

  /** The whole `miners()` view, minus rendering. */
  function RunCycle(inventory: seq<Polled>): Result<Page>
  {
    var outcomes := Polls(inventory);
    match Sweep(outcomes)
    case Crash(f) => Crash(f)
    case Ok(rep) =>
      Ok(Page(rep.(alerts := rep.alerts + SummaryAlerts(inventory, rep.errors)), ShownTotals(rep.totals)))
  }

  /** Every polled outcome can be merged, and a reachable one carries the
      verdict of the rules on its own reading. */
  lemma PollsConsistent(inventory: seq<Polled>)
    ensures forall k | 0 <= k < |Polls(inventory)| :: Sound(Polls(inventory)[k])
    ensures forall k | 0 <= k < |Polls(inventory)| :: Polls(inventory)[k].Up? ==>
      Polls(inventory)[k].verdict
        == Evaluate(Polls(inventory)[k].miner.ip, Polls(inventory)[k].miner.model.name, Polls(inventory)[k].reading)
  {
    var outcomes := Polls(inventory);
    forall k | 0 <= k < |outcomes|
      ensures Sound(outcomes[k])
      ensures outcomes[k].Up? ==>
        outcomes[k].verdict == Evaluate(outcomes[k].miner.ip, outcomes[k].miner.model.name, outcomes[k].reading)
    {
      assert outcomes[k] == Poll(inventory[k]);
    }
  }

  /** The page is rendered exactly when no miner's handling raised. */
  lemma RunCycleCrashes(inventory: seq<Polled>)
    ensures RunCycle(inventory).Crash? <==> exists k | 0 <= k < |inventory| :: Poll(inventory[k]).Failed?
  {
    var outcomes := Polls(inventory);
    SweepCrashes(outcomes);
    assert forall k | 0 <= k < |inventory| :: outcomes[k] == Poll(inventory[k]);
  }

  predicate IsNoMiners(a: Alert) { a.kind.NoMiners? }
  predicate IsAllNormal(a: Alert) { a.kind.AllNormal? }

  /** An empty inventory gives an empty page with the single "no miners" message. */
  lemma EmptyInventory()
    ensures RunCycle([]).Ok?
    ensures RunCycle([]).value.report.alerts == [Alert(NoMiners, Info, None, false)]
    ensures RunCycle([]).value.report.active == [] && RunCycle([]).value.report.inactive == []
    ensures RunCycle([]).value.shownTotals == map[]
  {
    var shown := ShownTotals(Start.totals);
    assert shown.Keys == {};
  }

  /** The summary message after a loop over a non-empty inventory: "all
      normal" exactly when nothing set `errors`, never "no miners". */
  lemma SummaryAfterSweep(outcomes: seq<Outcome>, rep: Report, inventory: seq<Polled>)
    requires |inventory| > 0
    requires forall k | 0 <= k < |outcomes| :: Sound(outcomes[k])
    requires forall k | 0 <= k < |outcomes| :: outcomes[k].Up? ==>
      outcomes[k].verdict == Evaluate(outcomes[k].miner.ip, outcomes[k].miner.model.name, outcomes[k].reading)
    requires Sweep(outcomes) == Ok(rep)
    ensures Filter(rep.alerts + SummaryAlerts(inventory, rep.errors), IsAllNormal)
         == (if exists k | 0 <= k < |outcomes| :: SetsErrors(outcomes[k]) then [] else [AllNormalInfo])
    ensures Filter(rep.alerts + SummaryAlerts(inventory, rep.errors), IsNoMiners) == []
  {
    SweepErrors(outcomes, rep);
    SweepAlertsPerMiner(outcomes, rep);
    var summary := SummaryAlerts(inventory, rep.errors);
    FilterAppend(rep.alerts, summary, IsAllNormal);
    FilterAppend(rep.alerts, summary, IsNoMiners);
    FilterNone(rep.alerts, IsAllNormal);
    FilterNone(rep.alerts, IsNoMiners);
    FilterShort(summary, IsAllNormal);
    FilterShort(summary, IsNoMiners);
  }

  /** For a non-empty inventory, exactly one "all normal" message appears when
      no miner is unreachable and no rule that sets `errors` fired, and none
      otherwise; the "no miners" message never appears. */
  lemma AllNormalIffNoErrors(inventory: seq<Polled>)
    requires |inventory| > 0 && RunCycle(inventory).Ok?
    ensures Filter(RunCycle(inventory).value.report.alerts, IsAllNormal)
         == (if exists k | 0 <= k < |inventory| :: SetsErrors(Poll(inventory[k])) then [] else [AllNormalInfo])
    ensures Filter(RunCycle(inventory).value.report.alerts, IsNoMiners) == []
  {
    var outcomes := Polls(inventory);
    PollsConsistent(inventory);
    var rep := Sweep(outcomes).value;
    SummaryAfterSweep(outcomes, rep, inventory);
    PageOf(inventory, rep);
    assert forall k | 0 <= k < |inventory| :: Poll(inventory[k]) == outcomes[k];
  }

  /** A model appears among the shown totals exactly when its active miners'
      hash rates sum to more than zero. */
  lemma ShownTotalsArePositive(inventory: seq<Polled>)
    requires RunCycle(inventory).Ok?
    ensures forall name | name in ModelUnits ::
      name in RunCycle(inventory).value.shownTotals <==> ModelTotal(Polls(inventory), name) > 0.0
  {
    SweepTotals(Polls(inventory), Sweep(Polls(inventory)).value);
  }

  /** The page is the loop's report plus the summary message and the shown totals. */
  lemma PageOf(inventory: seq<Polled>, rep: Report)
    requires Sweep(Polls(inventory)) == Ok(rep)
    ensures RunCycle(inventory)
         == Ok(Page(rep.(alerts := rep.alerts + SummaryAlerts(inventory, rep.errors)), ShownTotals(rep.totals)))
  {
  }

  /** The page's alerts are the rule alerts of the reachable miners in
      inventory order followed by at most one page-wide message, and the
      rest of the report is the loop's. */
  lemma PageAlerts(inventory: seq<Polled>)
    requires RunCycle(inventory).Ok?
    ensures var page := RunCycle(inventory).value.report;
      && |LoopAlerts(Polls(inventory))| <= |page.alerts| <= |LoopAlerts(Polls(inventory))| + 1
      && page.alerts[..|LoopAlerts(Polls(inventory))|] == LoopAlerts(Polls(inventory))
      && (forall k | |LoopAlerts(Polls(inventory))| <= k < |page.alerts| :: IsSummary(page.alerts[k]))
      && page.(alerts := []) == Sweep(Polls(inventory)).value.(alerts := [])
  {
    var outcomes := Polls(inventory);
    var rep := Sweep(outcomes).value;
    PollsConsistent(inventory);
    SweepAlerts(outcomes, rep);
    PageOf(inventory, rep);
    MessageFollows(rep.alerts, SummaryAlerts(inventory, rep.errors));
  }

  /** Appending at most one page-wide message keeps the loop's alerts as a prefix. */
  lemma MessageFollows(alerts: seq<Alert>, summary: seq<Alert>)
    requires |summary| <= 1 && forall a | a in summary :: IsSummary(a)
    ensures |alerts| <= |alerts + summary| <= |alerts| + 1
    ensures (alerts + summary)[..|alerts|] == alerts
    ensures forall k | |alerts| <= k < |alerts + summary| :: IsSummary((alerts + summary)[k])
  {
    assert forall k | |alerts| <= k < |alerts + summary| :: (alerts + summary)[k] in summary;
  }

  /** On the page, each active address's row shows the last reachable
      miner with that address; its temperature cell holds the readings, or
      the `0` sentinel when the miner reported none. */
  lemma PageCells(inventory: seq<Polled>)
    requires RunCycle(inventory).Ok?
    ensures var page := RunCycle(inventory).value.report;
      forall ip | LastUp(Polls(inventory), ip).Some? ::
        && ShowsCells(page, LastUp(Polls(inventory), ip).value)
        && page.temperatures[ip] == ShownTemperature(LastUp(Polls(inventory), ip).value.reading.temps)
  {
    var outcomes := Polls(inventory);
    var rep := Sweep(outcomes).value;
    PollsConsistent(inventory);
    SweepCells(outcomes, rep);
    PageOf(inventory, rep);
    forall ip | LastUp(outcomes, ip).Some?
      ensures rep.temperatures[ip] == ShownTemperature(LastUp(outcomes, ip).value.reading.temps)
    {
      var o := LastUp(outcomes, ip).value;
      var k :| 0 <= k < |outcomes| && outcomes[k] == o;
      assert o.verdict == Evaluate(o.miner.ip, o.miner.model.name, o.reading);
    }
  }

  /** 13500 GH/s of S9 is shown as 13.5 TH/s. */
  lemma ShownS9(totals: map<string, real>)
    requires totals.Keys == ModelUnits.Keys && totals["S9"] == 13500.0
    ensures "S9" in ShownTotals(totals) && ShownTotals(totals)["S9"] == (13.5, THs)
  {
    assert Normalize(13500.0, GHs) == (13.5, THs);
  }

  /** One unreachable miner next to a healthy S9 hashing 13500 GH/s: the
      healthy miner fires no rule, the S9 total is shown as 13.5 TH/s, and
      because the unreachable one sets `errors` the page flashes nothing, not
      even "all normal". */
  lemma UnreachableBesideHealthy(a: Miner, b: Miner, r: Reading) returns (rep: Report)
    requires b.model.name == "S9"
    requires r.ghs5s == 13500.0 && r.temps == [70]
    requires r.chips.ok == 189 && r.chips.defective == 0 && r.totalChips == 189
    ensures Sweep([Down(a), Up(b, r, Evaluate(b.ip, "S9", r))]) == Ok(rep)
    ensures rep.inactive == [a] && rep.active == [b] && rep.errors
    ensures rep.alerts == [] && rep.totals["S9"] == 13500.0
    ensures forall inventory: seq<Polled> | |inventory| > 0 :: SummaryAlerts(inventory, rep.errors) == []
    ensures "S9" in ShownTotals(rep.totals) && ShownTotals(rep.totals)["S9"] == (13.5, THs)
  {
    var v := Evaluate(b.ip, "S9", r);
    assert Max(r.temps) == 70;
    assert v.alerts == [];
    assert "S9" in ModelUnits;
    var outcomes := [Down(a), Up(b, r, v)];
    assert Sweep([]) == Ok(Start);
    var first := Merge(Start, Down(a)).value;
    assert [Down(a)][..0] == [];
    assert Sweep([Down(a)]) == Ok(first);
    assert outcomes[..1] == [Down(a)];
    rep := Merge(first, Up(b, r, v)).value;
    assert Sweep(outcomes) == Ok(rep);
    assert Start.totals["S9"] == 0.0;
    ShownS9(rep.totals);
  }
}

=== FILE: hash_units.dfy ===
/**
 Hash-rate units and the normaliser the view calls as `update_unit_and_value`
 (lib/util_hashrate is not part of this model, so this behaviour is assumed):
 a value is rescaled by factors of 1000 within its unit family, up or down,
 until it lies in [1, 1000) or the family has no further scale; zero is
 returned unchanged.
 */
module HashUnits {

  /** Hash rates (H/s) and Equihash solution rates (Sol/s) never mix. */
  datatype Family = Hashes | Solutions

  /** Scale 0 is the kilo unit (KH/s, KSol/s), then mega, giga, tera, peta, exa. */
  datatype Unit = Unit(family: Family, scale: nat)

  const TopScale: nat := 5

  const KHs := Unit(Hashes, 0)
  const MHs := Unit(Hashes, 1)
  const GHs := Unit(Hashes, 2)
  const THs := Unit(Hashes, 3)
  const KSols := Unit(Solutions, 0)

  function Pow1000(k: nat): (p: real)
    ensures p >= 1.0
  {
    if k == 0 then 1.0 else 1000.0 * Pow1000(k - 1)
  }

  /** The amount `value` in `unit`, expressed in the family's kilo unit. */
  function Magnitude(value: real, unit: Unit): real
  {
    value * Pow1000(unit.scale)
  }

  function StepUp(value: real, unit: Unit): (real, Unit)
    decreases TopScale - unit.scale
  {
    if value >= 1000.0 && unit.scale < TopScale then
      StepUp(value / 1000.0, unit.(scale := unit.scale + 1))
    else (value, unit)
  }

  function StepDown(value: real, unit: Unit): (real, Unit)
    decreases unit.scale
  {
    if value < 1.0 && unit.scale > 0 then
      StepDown(value * 1000.0, unit.(scale := unit.scale - 1))
    else (value, unit)
  }

  /** `update_unit_and_value(value, unit)`; zero is returned unchanged. */
  function Normalize(value: real, unit: Unit): (real, Unit)
  {
    if value == 0.0 then (value, unit)
    else if value >= 1000.0 then StepUp(value, unit)
    else StepDown(value, unit)
  }

  lemma {:induction false} StepUpFacts(value: real, unit: Unit)
    requires value >= 1.0
    ensures var (v, u) := StepUp(value, unit);
      && u.family == unit.family
      && Magnitude(v, u) == Magnitude(value, unit)
      && 1.0 <= v
      && (v < 1000.0 || u.scale >= TopScale)
    decreases TopScale - unit.scale
  {
    if value >= 1000.0 && unit.scale < TopScale {
      var up := unit.(scale := unit.scale + 1);
      assert Magnitude(value / 1000.0, up) == Magnitude(value, unit);
      StepUpFacts(value / 1000.0, up);
    }
  }

  lemma {:induction false} StepDownFacts(value: real, unit: Unit)
    requires value < 1000.0
    ensures var (v, u) := StepDown(value, unit);
      && u.family == unit.family
      && Magnitude(v, u) == Magnitude(value, unit)
      && (v > 0.0 <==> value > 0.0)
      && v < 1000.0
      && (1.0 <= v || u.scale == 0)
    decreases unit.scale
  {
    if value < 1.0 && unit.scale > 0 {
      var down := unit.(scale := unit.scale - 1);
      assert Pow1000(unit.scale) == 1000.0 * Pow1000(down.scale);
      assert Magnitude(value * 1000.0, down) == Magnitude(value, unit);
      StepDownFacts(value * 1000.0, down);
    }
  }

  /** The normaliser keeps the unit family and the amount, keeps the sign,
      and lands in [1, 1000) unless the family has no further scale. */
  lemma NormalizeFacts(value: real, unit: Unit)
    ensures var (v, u) := Normalize(value, unit);
      && u.family == unit.family
      && Magnitude(v, u) == Magnitude(value, unit)
      && (v > 0.0 <==> value > 0.0)
      && (v == 0.0 <==> value == 0.0)
      && (value > 0.0 ==> (1.0 <= v || u.scale == 0) && (v < 1000.0 || u.scale >= TopScale))
  {
    if value == 0.0 {
    } else if value >= 1000.0 {
      StepUpFacts(value, unit);
    } else {
      StepDownFacts(value, unit);
      var (v, u) := Normalize(value, unit);
      assert v != 0.0 by {
        assert Magnitude(v, u) == Magnitude(value, unit);
        assert Magnitude(value, unit) != 0.0;
      }
    }
  }

  /** Normalising an already normalised value changes nothing. */
  lemma NormalizeIdempotent(value: real, unit: Unit)
    ensures var (v, u) := Normalize(value, unit);
      Normalize(v, u) == (v, u)
  {
    NormalizeFacts(value, unit);
    if value < 0.0 {
      StepDownBottom(value, unit);
    }
  }

  /** Zero stays as it is; 1500 KH/s is 1.5 MH/s; 13500 GH/s is 13.5 TH/s. */
  lemma NormalizeExamples(unit: Unit)
    ensures Normalize(0.0, unit) == (0.0, unit)
    ensures Normalize(1500.0, KHs) == (1.5, MHs)
    ensures Normalize(13500.0, GHs) == (13.5, THs)
  {
  }

  lemma {:induction false} StepDownBottom(value: real, unit: Unit)
    requires value < 0.0
    ensures StepDown(value, unit).1.scale == 0
    decreases unit.scale
  {
    if unit.scale > 0 {
      StepDownBottom(value * 1000.0, unit.(scale := unit.scale - 1));
    }
  }
}

=== FILE: health.dfy ===
/**
 The threshold rules the view applies to one reachable miner: chip rules,
 temperature rules and hash-rate rules. Each fired rule is a flashed alert;
 `escalated` marks the ones also pushed through `telegram_send`. Only some
 rules raise the page-wide `errors` flag, and only some are recorded as the
 miner's error message.
 */
module Health {
  import opened Text
  import opened Telemetry

  /** The flash category of a message. */
  datatype Severity = Info | Warning | Error

  datatype Kind =
    | ChipsDefective(count: nat)
    | ChipsMissing(model: string, present: nat, total: int)
    | HighTemperature
    | TemperatureUnavailable
    | HashRateZero
    | HashRateLow(ghs5s: real)
    | NoMiners
    | AllNormal

  /** A flashed message; `ip` is `None` for the page-wide summary messages. */
  datatype Alert = Alert(kind: Kind, severity: Severity, ip: Option<string>, escalated: bool)

  /** The temperature cell of a miner: its readings, or the `0` the view stores
      when there are none. */
  datatype TempShown = Readings(temps: seq<int>) | ZeroSentinel

  /** The outcome of the rules for one miner: its alerts in flash order,
      whether it raises `errors`, the message stored in `miner_errors` (the
      last one written), and its temperature cell. */
  datatype Verdict = Verdict(alerts: seq<Alert>, raisesErrors: bool, minerError: Option<Alert>, shownTemp: TempShown)

  /** The below-minimum thresholds, written into the rules for two models only. */
  const S9Minimum: real := 11000.0
  const Z9BigiMinimum: real := 35.0

  function Max(xs: seq<int>): (m: int)
    requires |xs| > 0
    ensures forall k | 0 <= k < |xs| :: xs[k] <= m
    ensures exists k | 0 <= k < |xs| :: xs[k] == m
  {
    if |xs| == 1 then xs[0]
    else
      var m' := Max(xs[1..]);
      assert forall k | 1 <= k < |xs| :: xs[k] == xs[1..][k - 1];
      if xs[0] >= m' then xs[0] else m'
  }

  function ChipAlerts(ip: string, model: string, c: ChipCounts, total: int): seq<Alert>
  {
    DefectiveAlert(ip, c) + MissingAlert(ip, model, c, total)
  }

  function TemperatureAlerts(ip: string, temps: seq<int>): seq<Alert>
  {
    if |temps| > 0 then
      var m := Max(temps);
      if 85 <= m < 90 then [Alert(HighTemperature, Warning, Some(ip), false)]
      else if m >= 90 then [Alert(HighTemperature, Warning, Some(ip), true)]
      else []
    else [Alert(TemperatureUnavailable, Error, Some(ip), false)]
  }

  function HashRateAlerts(ip: string, model: string, ghs5s: real): seq<Alert>
  {
    if ghs5s == 0.0 then [Alert(HashRateZero, Error, Some(ip), true)]
    else if ghs5s < S9Minimum && model == "S9" then [Alert(HashRateLow(ghs5s), Warning, Some(ip), true)]
    else if ghs5s < Z9BigiMinimum && model == "Z9 bigi" then [Alert(HashRateLow(ghs5s), Warning, Some(ip), true)]
    else []
  }

  /** All rules for one miner of model `model`, in the order the view runs them. */
  function Evaluate(ip: string, model: string, r: Reading): Verdict
  {
    var alerts := ChipAlerts(ip, model, r.chips, r.totalChips)
      + TemperatureAlerts(ip, r.temps) + HashRateAlerts(ip, model, r.ghs5s);
    Verdict(
      alerts,
      r.chips.defective > 0 || r.chips.ok + r.chips.defective < r.totalChips || r.ghs5s == 0.0,
      LastWhere(alerts, Recorded),
      ShownTemperature(r.temps))
  }

  /** The temperature cell for a list of readings. */
  function ShownTemperature(temps: seq<int>): TempShown
  {
    if |temps| > 0 then Readings(temps) else ZeroSentinel
  }

  predicate IsSummary(a: Alert) { a.kind.NoMiners? || a.kind.AllNormal? }
  predicate IsDefective(a: Alert) { a.kind.ChipsDefective? }
  predicate IsMissing(a: Alert) { a.kind.ChipsMissing? }
  predicate IsTemperature(a: Alert) { a.kind.HighTemperature? || a.kind.TemperatureUnavailable? }
  predicate IsHashRate(a: Alert) { a.kind.HashRateZero? || a.kind.HashRateLow? }

  /** The kinds whose rule sets `errors = True`. */
  predicate RaisesErrors(a: Alert) { a.kind.ChipsDefective? || a.kind.ChipsMissing? || a.kind.HashRateZero? }

  /** The kinds whose rule writes `miner_errors[ip]`. */
  predicate Recorded(a: Alert) { IsDefective(a) || IsMissing(a) || IsHashRate(a) }

  /** The alerts of `v` selected by `keep`, split along the three rule groups. */
  lemma SelectByGroup(ip: string, model: string, r: Reading, keep: Alert -> bool)
    ensures Filter(Evaluate(ip, model, r).alerts, keep)
         == Filter(ChipAlerts(ip, model, r.chips, r.totalChips), keep)
          + Filter(TemperatureAlerts(ip, r.temps), keep)
          + Filter(HashRateAlerts(ip, model, r.ghs5s), keep)
  {
    var chips := ChipAlerts(ip, model, r.chips, r.totalChips);
    var temps := TemperatureAlerts(ip, r.temps);
    var hash := HashRateAlerts(ip, model, r.ghs5s);
    FilterAppend(chips + temps, hash, keep);
    FilterAppend(chips, temps, keep);
  }

  function DefectiveAlert(ip: string, c: ChipCounts): seq<Alert>
  {
    if c.defective > 0 then [Alert(ChipsDefective(c.defective), Warning, Some(ip), true)] else []
  }

  function MissingAlert(ip: string, model: string, c: ChipCounts, total: int): seq<Alert>
  {
    if c.ok + c.defective < total
    then [Alert(ChipsMissing(model, c.ok + c.defective, total), Error, Some(ip), true)]
    else []
  }

  lemma KeepAll(s: seq<Alert>, keep: Alert -> bool)
    requires |s| <= 1 && forall a | a in s :: keep(a)
    ensures Filter(s, keep) == s
  {
    FilterShort(s, keep);
  }

  lemma DefectiveGroup(ip: string, c: ChipCounts)
    ensures Filter(DefectiveAlert(ip, c), IsDefective) == DefectiveAlert(ip, c)
    ensures Filter(DefectiveAlert(ip, c), IsMissing) == []
    ensures Filter(DefectiveAlert(ip, c), IsTemperature) == []
    ensures Filter(DefectiveAlert(ip, c), IsHashRate) == []
  {
    var s := DefectiveAlert(ip, c);
    KeepAll(s, IsDefective);
    FilterNone(s, IsMissing);
    FilterNone(s, IsTemperature);
    FilterNone(s, IsHashRate);
  }

  lemma MissingGroup(ip: string, model: string, c: ChipCounts, total: int)
    ensures Filter(MissingAlert(ip, model, c, total), IsMissing) == MissingAlert(ip, model, c, total)
    ensures Filter(MissingAlert(ip, model, c, total), IsDefective) == []
    ensures Filter(MissingAlert(ip, model, c, total), IsTemperature) == []
    ensures Filter(MissingAlert(ip, model, c, total), IsHashRate) == []
  {
    var s := MissingAlert(ip, model, c, total);
    KeepAll(s, IsMissing);
    FilterNone(s, IsDefective);
    FilterNone(s, IsTemperature);
    FilterNone(s, IsHashRate);
  }

  lemma TemperatureGroup(ip: string, temps: seq<int>)
    ensures Filter(TemperatureAlerts(ip, temps), IsTemperature) == TemperatureAlerts(ip, temps)
    ensures Filter(TemperatureAlerts(ip, temps), IsDefective) == []
    ensures Filter(TemperatureAlerts(ip, temps), IsMissing) == []
    ensures Filter(TemperatureAlerts(ip, temps), IsHashRate) == []
  {
    var s := TemperatureAlerts(ip, temps);
    KeepAll(s, IsTemperature);
    FilterNone(s, IsDefective);
    FilterNone(s, IsMissing);
    FilterNone(s, IsHashRate);
  }

  lemma HashRateGroup(ip: string, model: string, ghs5s: real)
    ensures Filter(HashRateAlerts(ip, model, ghs5s), IsHashRate) == HashRateAlerts(ip, model, ghs5s)
    ensures Filter(HashRateAlerts(ip, model, ghs5s), IsDefective) == []
    ensures Filter(HashRateAlerts(ip, model, ghs5s), IsMissing) == []
    ensures Filter(HashRateAlerts(ip, model, ghs5s), IsTemperature) == []
  {
    var s := HashRateAlerts(ip, model, ghs5s);
    KeepAll(s, IsHashRate);
    FilterNone(s, IsDefective);
    FilterNone(s, IsMissing);
    FilterNone(s, IsTemperature);
  }

  /** Each rule group's alerts are exactly the verdict's alerts of that kind. */
  lemma KindsSelected(ip: string, model: string, r: Reading)
    ensures Filter(Evaluate(ip, model, r).alerts, IsDefective) == DefectiveAlert(ip, r.chips)
    ensures Filter(Evaluate(ip, model, r).alerts, IsMissing) == MissingAlert(ip, model, r.chips, r.totalChips)
    ensures Filter(Evaluate(ip, model, r).alerts, IsTemperature) == TemperatureAlerts(ip, r.temps)
    ensures Filter(Evaluate(ip, model, r).alerts, IsHashRate) == HashRateAlerts(ip, model, r.ghs5s)
  {
    var d := DefectiveAlert(ip, r.chips);
    var m := MissingAlert(ip, model, r.chips, r.totalChips);
    DefectiveGroup(ip, r.chips);
    MissingGroup(ip, model, r.chips, r.totalChips);
    TemperatureGroup(ip, r.temps);
    HashRateGroup(ip, model, r.ghs5s);
    SelectByGroup(ip, model, r, IsDefective);
    SelectByGroup(ip, model, r, IsMissing);
    SelectByGroup(ip, model, r, IsTemperature);
    SelectByGroup(ip, model, r, IsHashRate);
    FilterAppend(d, m, IsDefective);
    FilterAppend(d, m, IsMissing);
    FilterAppend(d, m, IsTemperature);
    FilterAppend(d, m, IsHashRate);
  }

  /** Defective chips give exactly one escalated warning, and it raises `errors`. */
  lemma DefectiveChipsRule(ip: string, model: string, r: Reading)
    ensures Filter(Evaluate(ip, model, r).alerts, IsDefective)
      == (if r.chips.defective > 0
          then [Alert(ChipsDefective(r.chips.defective), Warning, Some(ip), true)]
          else [])
    ensures r.chips.defective > 0 ==> Evaluate(ip, model, r).raisesErrors
  {
    KindsSelected(ip, model, r);
  }

  /** Fewer working plus defective chips than the model's total gives exactly
      one escalated error, and it raises `errors`. */
  lemma MissingChipsRule(ip: string, model: string, r: Reading)
    ensures Filter(Evaluate(ip, model, r).alerts, IsMissing)
      == (if r.chips.ok + r.chips.defective < r.totalChips
          then [Alert(ChipsMissing(model, r.chips.ok + r.chips.defective, r.totalChips), Error, Some(ip), true)]
          else [])
    ensures r.chips.ok + r.chips.defective < r.totalChips ==> Evaluate(ip, model, r).raisesErrors
  {
    KindsSelected(ip, model, r);
  }

  /** The warming-up counts (`B`, `C`) change nothing at all. */
  lemma WarmingIgnored(ip: string, model: string, r: Reading, b: nat, c: nat)
    ensures Evaluate(ip, model, r.(chips := r.chips.(warmB := b, warmC := c))) == Evaluate(ip, model, r)
  {
    var w := r.(chips := r.chips.(warmB := b, warmC := c));
    assert w.chips.ok == r.chips.ok && w.chips.defective == r.chips.defective;
    assert ChipAlerts(ip, model, w.chips, w.totalChips) == ChipAlerts(ip, model, r.chips, r.totalChips);
  }

  /** At most one temperature alert: none when the hottest reading is below
      85, a warning when it is in [85, 90), escalated from 90 on, an error
      when there is no reading, which also shows as the 0 sentinel. */
  lemma TemperatureRules(ip: string, model: string, r: Reading)
    ensures |Filter(Evaluate(ip, model, r).alerts, IsTemperature)| <= 1
    ensures |r.temps| == 0
      <==> Filter(Evaluate(ip, model, r).alerts, IsTemperature) == [Alert(TemperatureUnavailable, Error, Some(ip), false)]
    ensures |r.temps| > 0 && 85 <= Max(r.temps) < 90
      <==> Filter(Evaluate(ip, model, r).alerts, IsTemperature) == [Alert(HighTemperature, Warning, Some(ip), false)]
    ensures |r.temps| > 0 && Max(r.temps) >= 90
      <==> Filter(Evaluate(ip, model, r).alerts, IsTemperature) == [Alert(HighTemperature, Warning, Some(ip), true)]
    ensures |r.temps| > 0 && Max(r.temps) < 85
      <==> Filter(Evaluate(ip, model, r).alerts, IsTemperature) == []
    ensures Evaluate(ip, model, r).shownTemp == ZeroSentinel <==> |r.temps| == 0
  {
    KindsSelected(ip, model, r);
  }

  /** Replacing the temperatures never changes whether `errors` is raised. */
  lemma TemperatureNeverRaisesErrors(ip: string, model: string, r: Reading, temps: seq<int>)
    ensures Evaluate(ip, model, r.(temps := temps)).raisesErrors == Evaluate(ip, model, r).raisesErrors
  {
  }

  /** The hash-rate rules are one else-if chain: a zero rate is an escalated
      error that raises `errors`; otherwise an S9 below 11000 or a Z9 bigi
      below 35 is an escalated warning that does not, and no other model or
      rate gives any hash-rate alert. */
  lemma HashRateRules(ip: string, model: string, r: Reading)
    ensures |Filter(Evaluate(ip, model, r).alerts, IsHashRate)| <= 1
    ensures r.ghs5s == 0.0
      <==> Filter(Evaluate(ip, model, r).alerts, IsHashRate) == [Alert(HashRateZero, Error, Some(ip), true)]
    ensures r.ghs5s != 0.0 && ((model == "S9" && r.ghs5s < S9Minimum) || (model == "Z9 bigi" && r.ghs5s < Z9BigiMinimum))
      <==> Filter(Evaluate(ip, model, r).alerts, IsHashRate) == [Alert(HashRateLow(r.ghs5s), Warning, Some(ip), true)]
    ensures Filter(Evaluate(ip, model, r).alerts, IsHashRate) == []
      <==> r.ghs5s != 0.0 && !((model == "S9" && r.ghs5s < S9Minimum) || (model == "Z9 bigi" && r.ghs5s < Z9BigiMinimum))
    ensures r.ghs5s == 0.0 ==> Evaluate(ip, model, r).raisesErrors
    ensures r.ghs5s != 0.0 ==> (Evaluate(ip, model, r).raisesErrors
      <==> r.chips.defective > 0 || r.chips.ok + r.chips.defective < r.totalChips)
  {
    KindsSelected(ip, model, r);
  }

  /** Every alert of a verdict names its miner; none is a page-wide summary. */
  lemma PerMinerAlerts(ip: string, model: string, r: Reading)
    ensures forall a | a in Evaluate(ip, model, r).alerts :: a.ip == Some(ip) && !IsSummary(a)
  {
    var chips := ChipAlerts(ip, model, r.chips, r.totalChips);
    var temps := TemperatureAlerts(ip, r.temps);
    var hash := HashRateAlerts(ip, model, r.ghs5s);
    assert forall a | a in chips :: a.ip == Some(ip) && !IsSummary(a);
    assert forall a | a in temps :: a.ip == Some(ip) && !IsSummary(a);
    assert forall a | a in hash :: a.ip == Some(ip) && !IsSummary(a);
    assert forall a | a in chips + temps + hash :: a in chips || a in temps || a in hash;
  }

  /** `errors` is raised exactly when one of the raising rules fired. */
  lemma RaisesErrorsIffAlert(ip: string, model: string, r: Reading)
    ensures Evaluate(ip, model, r).raisesErrors <==> exists a | a in Evaluate(ip, model, r).alerts :: RaisesErrors(a)
  {
    var chips := ChipAlerts(ip, model, r.chips, r.totalChips);
    var temps := TemperatureAlerts(ip, r.temps);
    var hash := HashRateAlerts(ip, model, r.ghs5s);
    var all := chips + temps + hash;
    assert forall a | a in temps :: !RaisesErrors(a);
    assert forall a | a in all :: a in chips || a in temps || a in hash;
    if r.chips.defective > 0 {
      assert chips[0] in all;
    } else if r.chips.ok + r.chips.defective < r.totalChips {
      assert chips[0] in all;
    } else if r.ghs5s == 0.0 {
      assert hash[0] in all;
    }
  }

  /** The last element of `s` that `keep` accepts. */
  function LastWhere<T>(s: seq<T>, keep: T -> bool): (r: Option<T>)
    ensures r.Some? ==> r.value in s && keep(r.value)
    ensures r.None? <==> forall k | 0 <= k < |s| :: !keep(s[k])
  {
    if |s| == 0 then None
    else if keep(s[|s| - 1]) then Some(s[|s| - 1])
    else
      var r := LastWhere(s[..|s| - 1], keep);
      assert forall k | 0 <= k < |s| - 1 :: s[..|s| - 1][k] == s[k];
      r
  }


  /** What `LastWhere` finds is the last accepted element: the view's
      `miner_errors[ip] = ...` assignments overwrite each other, so the
      message stored is the one the last firing rule wrote. */
  lemma {:induction false} LastWhereIsLast<T>(s: seq<T>, keep: T -> bool)
    ensures LastWhere(s, keep).Some? ==> exists k | 0 <= k < |s| ::
      && s[k] == LastWhere(s, keep).value && keep(s[k])
      && forall j | k < j < |s| :: !keep(s[j])
    decreases |s|
  {
    if |s| > 0 && !keep(s[|s| - 1]) {
      var prefix := s[..|s| - 1];
      LastWhereIsLast(prefix, keep);
      if LastWhere(s, keep).Some? {
        var k :| 0 <= k < |prefix| && prefix[k] == LastWhere(prefix, keep).value && keep(prefix[k])
          && forall j | k < j < |prefix| :: !keep(prefix[j]);
        assert forall j | k < j < |s| - 1 :: s[j] == prefix[j];
        assert s[k] == prefix[k];
      }
    }
  }
}

=== FILE: telemetry.dfy ===
/**
 What the monitor reads out of one reachable miner's answers: the worker name
 from the pool list, the chip-status counts from the `chain_acs` fields, the
 expected chip total of the miner's model, temperatures and fan speeds, the
 5-second hash rate, the hardware-error rate and the uptime. The answers are
 inputs; every uncaught Python exception of the view is a `Crash` carrying
 the `Fault` that names it.
 */
module Telemetry {
  import opened Text

  /** A value in a device's JSON answer: a number or a string. */
  datatype Field = Num(n: real) | Str(s: string)

  type Entry = (string, Field)

  /** The `STATS[1]` section of a stats answer (or `SUMMARY[0]` of a summary
      answer), in the order the device sent its keys. */
  type Stats = seq<Entry>

  /** One entry of the `POOLS` answer; `user` is `None` when it has no `User` key. */
  datatype Pool = Pool(stratumActive: bool, user: Option<string>)

  /** A miner model row: its name, its comma-separated chips-per-board list,
      and the key prefix of its temperature sensors. */
  datatype MinerModel = MinerModel(name: string, chips: string, tempKeys: string)

  datatype Miner = Miner(ip: string, model: MinerModel)

  /** The exceptions the view does not catch; each one aborts the whole page. */
  datatype Fault =
    | NoActivePool(ip: string)                 // IndexError on `active_pool[0]`
    | BadChipList(chips: string)               // ValueError from `int(y)`
    | BadTemperature(ip: string, key: string)  // ValueError from `int(...)` on a reading
    | MisspelledSummary(ip: string)            // KeyError on `'SUMAMRY'`
    | NoHardwareErrorRate(ip: string)          // KeyError on `'Device Hardware%'`
    | BadElapsed(ip: string)                   // KeyError or TypeError on `'Elapsed'`
    | UnknownModel(ip: string, model: string)  // KeyError on the per-model totals

  datatype Result<+T> = Ok(value: T) | Crash(fault: Fault)

  /** Dictionary lookup: the value of the first entry with this key. */
  function Lookup(stats: Stats, key: string): (r: Option<Field>)
    ensures r.None? <==> forall i | 0 <= i < |stats| :: stats[i].0 != key
    ensures r.Some? ==> (key, r.value) in stats
  {
    if |stats| == 0 then None
    else if stats[0].0 == key then Some(stats[0].1)
    else Lookup(stats[1..], key)
  }

  // ---------------------------------------------------------------- worker

  /** The user of the first pool whose `Stratum Active` flag is set, `""` if
      that pool has no `User`; no active pool at all is an `IndexError`. */
  function SelectWorker(ip: string, pools: seq<Pool>): (r: Result<string>)
    ensures r.Crash? <==> forall j | 0 <= j < |pools| :: !pools[j].stratumActive
    ensures r.Crash? ==> r.fault == NoActivePool(ip)
    ensures r.Ok? ==> exists i | 0 <= i < |pools| ::
      && pools[i].stratumActive
      && (forall j | 0 <= j < i :: !pools[j].stratumActive)
      && r.value == (if pools[i].user.Some? then pools[i].user.value else "")
  {
    if |pools| == 0 then Crash(NoActivePool(ip))
    else if pools[0].stratumActive then
      Ok(if pools[0].user.Some? then pools[0].user.value else "")
    else
      var r := SelectWorker(ip, pools[1..]);
      if r.Ok? then
        var i :| 0 <= i < |pools[1..]| && pools[1..][i].stratumActive
          && (forall j | 0 <= j < i :: !pools[1..][j].stratumActive)
          && r.value == (if pools[1..][i].user.Some? then pools[1..][i].user.value else "");
        assert pools[i + 1] == pools[1..][i];
        r
      else r
  }

  // ------------------------------------------------------------- filtering

  /** The elements of `s` that `keep` accepts, in their original order. */
  function Filter<T(!new)>(s: seq<T>, keep: T -> bool): (r: seq<T>)
    ensures |r| <= |s|
    ensures forall x :: x in r <==> x in s && keep(x)
  {
    if |s| == 0 then []
    else
      var rest := Filter(s[1..], keep);
      assert forall x :: x in s <==> x == s[0] || x in s[1..];
      if keep(s[0]) then [s[0]] + rest else rest
  }

  lemma {:induction false} FilterAppend<T(!new)>(a: seq<T>, b: seq<T>, keep: T -> bool)
    ensures Filter(a + b, keep) == Filter(a, keep) + Filter(b, keep)
    decreases |a|
  {
    if |a| == 0 {
      assert a + b == b;
    } else {
      assert (a + b)[1..] == a[1..] + b;
      FilterAppend(a[1..], b, keep);
    }
  }

  lemma {:induction false} FilterNone<T(!new)>(s: seq<T>, keep: T -> bool)
    requires forall x | x in s :: !keep(x)
    ensures Filter(s, keep) == []
    decreases |s|
  {
    if |s| > 0 {
      assert s[0] in s;
      assert forall x | x in s[1..] :: x in s;
      FilterNone(s[1..], keep);
    }
  }

  lemma FilterShort<T(!new)>(s: seq<T>, keep: T -> bool)
    requires |s| <= 1
    ensures Filter(s, keep) == (if |s| == 1 && keep(s[0]) then s else [])
  {
    if |s| == 1 {
      assert s[1..] == [];
    }
  }

  /** Filtering keeps every accepted element as often as it occurs, and
      drops every other. */
  lemma {:induction false} FilterCount<T(!new)>(s: seq<T>, keep: T -> bool, x: T)
    ensures multiset(Filter(s, keep))[x] == if keep(x) then multiset(s)[x] else 0
    decreases |s|
  {
    if |s| > 0 {
      FilterCount(s[1..], keep, x);
      assert s == [s[0]] + s[1..];
    }
  }

  /** Filtering two permutations of each other gives permutations of each other. */
  lemma FilterPermutation<T(!new)>(a: seq<T>, b: seq<T>, keep: T -> bool)
    requires multiset(a) == multiset(b)
    ensures multiset(Filter(a, keep)) == multiset(Filter(b, keep))
  {
    forall x
      ensures multiset(Filter(a, keep))[x] == multiset(Filter(b, keep))[x]
    {
      FilterCount(a, keep, x);
      FilterCount(b, keep, x);
    }
  }

  predicate SortedByKey(s: Stats)
  {
    forall i, j | 0 <= i < j < |s| :: AtMost(s[i].0, s[j].0)
  }

  lemma {:induction false} FilterKeepsSorted(s: Stats, keep: Entry -> bool)
    requires SortedByKey(s)
    ensures SortedByKey(Filter(s, keep))
    decreases |s|
  {
    if |s| > 0 {
      FilterKeepsSorted(s[1..], keep);
      var rest := Filter(s[1..], keep);
      if keep(s[0]) {
        forall k | 0 <= k < |rest|
          ensures AtMost(s[0].0, rest[k].0)
        {
          assert rest[k] in s[1..];
          var j :| 0 <= j < |s[1..]| && s[1..][j] == rest[k];
          assert s[j + 1] == rest[k];
        }
      }
    }
  }

  // --------------------------------------------------------------- sorting

  /** `e` placed before the first entry whose key is not below its own. */
  function Insert(e: Entry, s: Stats): (r: Stats)
    requires SortedByKey(s)
    ensures SortedByKey(r)
    ensures multiset(r) == multiset(s) + multiset{e}
    decreases |s|
  {
    if |s| == 0 then [e]
    else if AtMost(e.0, s[0].0) then
      BelowSorted(e, s);
      [e] + s
    else
      AtMostTotal(e.0, s[0].0);
      var t := Insert(e, s[1..]);
      assert s == [s[0]] + s[1..];
      HeadStaysFirst(s, e, t);
      [s[0]] + t
  }

  /** The head of a sorted `s` stays first when `e`, whose key is not below
      the head's, is inserted into the rest of `s`. */
  lemma HeadStaysFirst(s: Stats, e: Entry, t: Stats)
    requires SortedByKey(s) && |s| > 0 && AtMost(s[0].0, e.0)
    requires SortedByKey(t) && multiset(t) == multiset(s[1..]) + multiset{e}
    ensures SortedByKey([s[0]] + t)
  {
    forall k | 0 <= k < |t|
      ensures AtMost(s[0].0, t[k].0)
    {
      assert t[k] in multiset(t);
      if t[k] != e {
        assert t[k] in multiset(s[1..]);
        var j :| 0 <= j < |s[1..]| && s[1..][j] == t[k];
        assert s[j + 1] == t[k];
      }
    }
  }

  lemma BelowSorted(e: Entry, s: Stats)
    requires SortedByKey(s) && |s| > 0 && AtMost(e.0, s[0].0)
    ensures SortedByKey([e] + s)
  {
    forall j | 0 <= j < |s|
      ensures AtMost(e.0, s[j].0)
    {
      if j > 0 {
        AtMostTransitive(e.0, s[0].0, s[j].0);
      }
    }
  }

  /** `sorted(...)` on the entries by key; stable, as Python's sort is. */
  function SortByKey(s: Stats): (r: Stats)
    ensures SortedByKey(r)
    ensures multiset(r) == multiset(s)
  {
    if |s| == 0 then []
    else
      assert s == [s[0]] + s[1..];
      Insert(s[0], SortByKey(s[1..]))
  }

  // ----------------------------------------------------------- chip status

  /** The chip-status tally of one miner, summed over its chains. */
  datatype ChipCounts = ChipCounts(ok: nat, defective: nat, warmB: nat, warmC: nat, inactive: nat)

  /** The characters of `str(value)` that can be chip-status symbols: the
      string itself, or, for a number, only its minus sign. */
  function StatusText(f: Field): string
  {
    match f
    case Str(s) => s
    case Num(n) => if n < 0.0 then "-" else ""
  }

  predicate IsChainKey(e: Entry)
  {
    Contains(e.0, "chain_acs")
  }

  /** The values of every field whose key contains `chain_acs`, in answer order. */
  function ChainTexts(stats: Stats): (chains: seq<string>)
    ensures |chains| == |Filter(stats, IsChainKey)|
    ensures forall k | 0 <= k < |chains| :: chains[k] == StatusText(Filter(stats, IsChainKey)[k].1)
    ensures forall k | 0 <= k < |chains| ::
      exists e | e in stats :: IsChainKey(e) && chains[k] == StatusText(e.1)
  {
    var kept := Filter(stats, IsChainKey);
    var chains := seq(|kept|, k requires 0 <= k < |kept| => StatusText(kept[k].1));
    assert forall k | 0 <= k < |chains| :: kept[k] in kept && chains[k] == StatusText(kept[k].1);
    chains
  }

  /** Occurrences of `c` summed over all chains. */
  function SumOccurrences(chains: seq<string>, c: char): nat
  {
    if |chains| == 0 then 0
    else SumOccurrences(chains[..|chains| - 1], c) + Occurrences(chains[|chains| - 1], c)
  }

  function TotalLength(chains: seq<string>): nat
  {
    if |chains| == 0 then 0
    else TotalLength(chains[..|chains| - 1]) + |chains[|chains| - 1]|
  }

  function ChipStatus(chains: seq<string>): ChipCounts
  {
    ChipCounts(
      SumOccurrences(chains, 'o'), SumOccurrences(chains, 'x'),
      SumOccurrences(chains, 'B'), SumOccurrences(chains, 'C'),
      SumOccurrences(chains, '-'))
  }

  /** Counts over two groups of chains add up. */
  lemma {:induction false} SumOccurrencesAppend(a: seq<string>, b: seq<string>, c: char)
    ensures SumOccurrences(a + b, c) == SumOccurrences(a, c) + SumOccurrences(b, c)
    decreases |b|
  {
    if |b| == 0 {
      assert a + b == a;
    } else {
      var b' := b[..|b| - 1];
      assert (a + b)[..|a + b| - 1] == a + b';
      assert (a + b)[|a + b| - 1] == b[|b| - 1];
      SumOccurrencesAppend(a, b', c);
    }
  }

  /** Every status symbol counted is one character of some chain. */
  lemma {:induction false} ChipStatusBound(chains: seq<string>)
    ensures var t := ChipStatus(chains);
      t.ok + t.defective + t.warmB + t.warmC + t.inactive <= TotalLength(chains)
    decreases |chains|
  {
    if |chains| > 0 {
      ChipStatusBound(chains[..|chains| - 1]);
      StatusSymbolsBound(chains[|chains| - 1]);
    }
  }

  /** A chain reading "ooox--C": three working chips, one defective, one
      warming up (`C`) and two inactive. */
  lemma ChainExample()
    ensures ChipStatus(["ooox--C"]) == ChipCounts(3, 1, 0, 1, 2)
  {
    var s := "ooox--C";
    SingleChain(s);
    var t := ChipStatus([s]);
    assert t.ok == 3 by { ChainExampleCount('o'); }
    assert t.defective == 1 by { ChainExampleCount('x'); }
    assert t.warmB == 0 by { ChainExampleCount('B'); }
    assert t.warmC == 1 by { ChainExampleCount('C'); }
    assert t.inactive == 2 by { ChainExampleCount('-'); }
  }

  /** The tally of a single chain is its own symbol counts. */
  lemma SingleChain(s: string)
    ensures ChipStatus([s]) == ChipCounts(Occurrences(s, 'o'), Occurrences(s, 'x'),
      Occurrences(s, 'B'), Occurrences(s, 'C'), Occurrences(s, '-'))
  {
    var none: seq<string> := [];
    assert [s][..0] == none;
    assert forall c :: SumOccurrences([s], c) == SumOccurrences(none, c) + Occurrences(s, c);
  }

  /** Counting over a string that starts with `ch`. */
  lemma OccurrencesCons(ch: char, s: string, c: char)
    ensures Occurrences([ch] + s, c) == (if ch == c then 1 else 0) + Occurrences(s, c)
  {
    assert ([ch] + s)[0] == ch && ([ch] + s)[1..] == s;
  }

  /** The count of `c` in "ooox--C", one character at a time. */
  lemma ChainExampleCount(c: char)
    ensures Occurrences("ooox--C", c)
         == (if c == 'o' then 3 else 0) + (if c == 'x' then 1 else 0)
          + (if c == '-' then 2 else 0) + (if c == 'C' then 1 else 0)
  {
    var s0: string := [];
    var s1 := ['C'] + s0;
    var s2 := ['-'] + s1;
    var s3 := ['-'] + s2;
    var s4 := ['x'] + s3;
    var s5 := ['o'] + s4;
    var s6 := ['o'] + s5;
    var s7 := ['o'] + s6;
    OccurrencesCons('C', s0, c);
    OccurrencesCons('-', s1, c);
    OccurrencesCons('-', s2, c);
    OccurrencesCons('x', s3, c);
    OccurrencesCons('o', s4, c);
    OccurrencesCons('o', s5, c);
    OccurrencesCons('o', s6, c);
    assert s7 == "ooox--C";
  }

  /** The tally of a single character: one in the column of its symbol. */
  function Symbol(ch: char): ChipCounts
  {
    ChipCounts(
      if ch == 'o' then 1 else 0, if ch == 'x' then 1 else 0,
      if ch == 'B' then 1 else 0, if ch == 'C' then 1 else 0,
      if ch == '-' then 1 else 0)
  }

  /** The nested counting loop written as one pass over every character of
      every chain; it computes the same tally as `ChipStatus`, the form the
      rest of the model uses. */
  method CountChipStatus(chains: seq<string>) returns (t: ChipCounts)
    ensures t == ChipStatus(chains)
  {
    var o, x, b, c, d := 0, 0, 0, 0, 0;
    var i := 0;
    while i < |chains|
      invariant 0 <= i <= |chains|
      invariant o == SumOccurrences(chains[..i], 'o') && x == SumOccurrences(chains[..i], 'x')
      invariant b == SumOccurrences(chains[..i], 'B') && c == SumOccurrences(chains[..i], 'C')
      invariant d == SumOccurrences(chains[..i], '-')
    {
      var s := chains[i];
      var o0, x0, b0, c0, d0 := o, x, b, c, d;
      var j := 0;
      while j < |s|
        invariant 0 <= j <= |s|
        invariant o == o0 + Occurrences(s[..j], 'o') && x == x0 + Occurrences(s[..j], 'x')
        invariant b == b0 + Occurrences(s[..j], 'B') && c == c0 + Occurrences(s[..j], 'C')
        invariant d == d0 + Occurrences(s[..j], '-')
      {
        OccurrencesSnoc(s, j, 'o');
        OccurrencesSnoc(s, j, 'x');
        OccurrencesSnoc(s, j, 'B');
        OccurrencesSnoc(s, j, 'C');
        OccurrencesSnoc(s, j, '-');
        var one := Symbol(s[j]);
        o, x, b, c, d := o + one.ok, x + one.defective, b + one.warmB, c + one.warmC, d + one.inactive;
        j := j + 1;
      }
      assert s[..|s|] == s;
      assert chains[..i + 1][..i] == chains[..i];
      i := i + 1;
    }
    assert chains[..|chains|] == chains;
    t := ChipCounts(o, x, b, c, d);
  }

  // ------------------------------------------------------------ chip total

  /** `int(y)` for every piece, or `None` at the first piece that fails. */
  function ParseAll(parts: seq<string>): (r: Option<seq<int>>)
    ensures r.None? <==> exists k | 0 <= k < |parts| :: ParseInt(parts[k]).None?
    ensures r.Some? ==> |r.value| == |parts|
    ensures r.Some? ==> forall k | 0 <= k < |parts| :: ParseInt(parts[k]) == Some(r.value[k])
  {
    if |parts| == 0 then Some([])
    else
      var head := ParseInt(parts[0]);
      var tail := ParseAll(parts[1..]);
      if head.Some? && tail.Some? then
        Some([head.value] + tail.value)
      else
        assert head.None? ==> ParseInt(parts[0]).None?;
        assert tail.None? ==> exists k | 1 <= k < |parts| :: ParseInt(parts[k]).None? by {
          if tail.None? {
            var k :| 0 <= k < |parts[1..]| && ParseInt(parts[1..][k]).None?;
            assert parts[k + 1] == parts[1..][k];
          }
        }
        None
  }

  function Sum(xs: seq<int>): int
  {
    if |xs| == 0 then 0 else xs[0] + Sum(xs[1..])
  }

  /** `sum(int(y) for y in chips.split(','))`. */
  function TotalChips(chips: string): (r: Result<int>)
    ensures r.Crash? <==> exists k | 0 <= k < |Split(chips, ',')| :: ParseInt(Split(chips, ',')[k]).None?
    ensures r.Crash? ==> r.fault == BadChipList(chips)
  {
    var parts := Split(chips, ',');
    var counts := ParseAll(parts);
    if counts.Some? then Ok(Sum(counts.value))
    else
      var k :| 0 <= k < |parts| && ParseInt(parts[k]).None?;
      assert ParseInt(Split(chips, ',')[k]).None?;
      Crash(BadChipList(chips))
  }

  function Decimals(xs: seq<nat>): (parts: seq<string>)
    ensures |parts| == |xs|
    ensures forall k | 0 <= k < |xs| :: parts[k] == Decimal(xs[k])
  {
    seq(|xs|, k requires 0 <= k < |xs| => Decimal(xs[k]))
  }

  /** A chips list written as comma-separated board counts totals their sum. */
  lemma TotalChipsOfList(xs: seq<nat>)
    requires |xs| > 0
    ensures TotalChips(Join(Decimals(xs), ',')) == Ok(Sum(xs))
  {
    var parts := Decimals(xs);
    forall k | 0 <= k < |parts|
      ensures ',' !in parts[k] && ParseInt(parts[k]) == Some(xs[k])
    {
      ParseIntDecimal(xs[k]);
      assert forall i | 0 <= i < |parts[k]| :: IsDigit(parts[k][i]);
    }
    SplitJoin(parts, ',');
    var r := ParseAll(parts);
    assert r.value == xs;
  }

  // --------------------------------------------------- temperatures, fans

  predicate IsZero(f: Field)
  {
    f.Num? && f.n == 0.0
  }

  /** A sensor field: its key holds the prefix followed by a digit, and its
      value is not the number zero (a string never compares equal to 0). */
  predicate IsSensor(e: Entry, prefix: string)
  {
    HasPrefixDigit(e.0, prefix) && !IsZero(e.1)
  }

  /** The sensor fields, visited in ascending key order. */
  function SensorFields(stats: Stats, prefix: string): (r: Stats)
    ensures SortedByKey(r)
    ensures forall e :: e in r <==> e in stats && IsSensor(e, prefix)
    ensures multiset(r) == multiset(Filter(stats, SensorOf(prefix)))
    ensures |r| == |Filter(stats, SensorOf(prefix))|
  {
    var sorted := SortByKey(stats);
    assert forall e :: e in sorted <==> e in stats by {
      assert forall e :: e in sorted <==> e in multiset(sorted);
    }
    FilterKeepsSorted(sorted, SensorOf(prefix));
    FilterPermutation(sorted, stats, SensorOf(prefix));
    Filter(sorted, SensorOf(prefix))
  }

  /** The sensor test for one prefix, as a filter condition. */
  function SensorOf(prefix: string): Entry -> bool
  {
    e => IsSensor(e, prefix)
  }

  /** Python's `int(value)`: numbers truncate toward zero, strings parse. */
  function IntOf(f: Field): Option<int>
  {
    match f
    case Num(n) => Some(if n >= 0.0 then n.Floor else -((-n).Floor))
    case Str(s) => ParseInt(s)
  }

  function ConvertAll(ip: string, fields: Stats): (r: Result<seq<int>>)
    ensures r.Crash? <==> exists k | 0 <= k < |fields| :: IntOf(fields[k].1).None?
    ensures r.Ok? ==> |r.value| == |fields|
    ensures r.Ok? ==> forall k | 0 <= k < |fields| :: IntOf(fields[k].1) == Some(r.value[k])
  {
    if |fields| == 0 then Ok([])
    else
      match IntOf(fields[0].1)
      case None => Crash(BadTemperature(ip, fields[0].0))
      case Some(t) =>
        var rest := ConvertAll(ip, fields[1..]);
        if rest.Crash? then
          var k :| 0 <= k < |fields[1..]| && IntOf(fields[1..][k].1).None?;
          assert fields[k + 1] == fields[1..][k];
          rest
        else Ok([t] + rest.value)
  }

  /** The temperatures: `int` of every temperature sensor reading, in key order. */
  function Temperatures(ip: string, stats: Stats, tempKeys: string): (r: Result<seq<int>>)
    ensures var fields := SensorFields(stats, tempKeys);
      && (r.Crash? <==> exists k | 0 <= k < |fields| :: IntOf(fields[k].1).None?)
      && (r.Ok? ==> |r.value| == |fields|)
      && (r.Ok? ==> forall k | 0 <= k < |fields| :: IntOf(fields[k].1) == Some(r.value[k]))
  {
    ConvertAll(ip, SensorFields(stats, tempKeys))
  }

  /** A reading that is a whole number; such readings convert exactly. */
  predicate WholeNumber(f: Field)
  {
    f.Num? && f.n == f.n.Floor as real
  }

  /** When every temperature reading is a whole number, no zero is reported. */
  lemma TemperaturesHaveNoZero(ip: string, stats: Stats, tempKeys: string)
    requires forall e | e in stats && HasPrefixDigit(e.0, tempKeys) :: WholeNumber(e.1)
    ensures Temperatures(ip, stats, tempKeys).Ok?
    ensures forall k | 0 <= k < |Temperatures(ip, stats, tempKeys).value| ::
      Temperatures(ip, stats, tempKeys).value[k] != 0
  {
    var fields := SensorFields(stats, tempKeys);
    forall k | 0 <= k < |fields|
      ensures IntOf(fields[k].1).Some? && IntOf(fields[k].1).value != 0
    {
      assert fields[k] in fields;
    }
  }

  /** The fan speeds: the raw value of every `fan<digit>` sensor, in key order. */
  function FanSpeeds(stats: Stats): (r: seq<Field>)
    ensures |r| == |SensorFields(stats, "fan")|
    ensures forall k | 0 <= k < |r| :: r[k] == SensorFields(stats, "fan")[k].1
    ensures forall k | 0 <= k < |r| :: !IsZero(r[k])
    ensures forall k | 0 <= k < |r| :: exists e | e in stats :: HasPrefixDigit(e.0, "fan") && e.1 == r[k]
  {
    var fields := SensorFields(stats, "fan");
    var r := seq(|fields|, k requires 0 <= k < |fields| => fields[k].1);
    assert forall k | 0 <= k < |r| :: r[k] == fields[k].1 && fields[k] in fields;
    r
  }

  // ------------------------------------------- hash rate, hw errors, uptime

  /** `float(str(x))` of the `GHS 5s` field, 0 when that raises `ValueError`;
      without the field the summary is read under the misspelled key
      `'SUMAMRY'`, which no summary answer has. */
  function HashRate5s(ip: string, stats: Stats): (r: Result<real>)
    ensures r.Crash? <==> Lookup(stats, "GHS 5s").None?
    ensures r.Crash? ==> r.fault == MisspelledSummary(ip)
    ensures r.Ok? ==> match Lookup(stats, "GHS 5s").value
      case Num(n) => r.value == n
      case Str(s) => r.value == (if ParseReal(s).Some? then ParseReal(s).value else 0.0)
  {
    match Lookup(stats, "GHS 5s")
    case None => Crash(MisspelledSummary(ip))
    case Some(Num(n)) => Ok(n)
    case Some(Str(s)) => Ok(match ParseReal(s) case Some(v) => v case None => 0.0)
  }

  /** `Device Hardware%` from the stats, else from the summary. */
  function HardwareErrorRate(ip: string, stats: Stats, summary: Stats): (r: Result<Field>)
    ensures r.Crash? <==> Lookup(stats, "Device Hardware%").None? && Lookup(summary, "Device Hardware%").None?
    ensures r.Ok? && Lookup(stats, "Device Hardware%").Some? ==> ("Device Hardware%", r.value) in stats
    ensures r.Ok? && Lookup(stats, "Device Hardware%").None? ==> ("Device Hardware%", r.value) in summary
  {
    match Lookup(stats, "Device Hardware%")
    case Some(f) => Ok(f)
    case None =>
      match Lookup(summary, "Device Hardware%")
      case Some(f) => Ok(f)
      case None => Crash(NoHardwareErrorRate(ip))
  }

  /** `timedelta(seconds=Elapsed)`, in seconds. */
  function Uptime(ip: string, stats: Stats): (r: Result<real>)
    ensures r.Ok? <==> exists n :: ("Elapsed", Num(n)) in stats && Lookup(stats, "Elapsed") == Some(Num(n))
    ensures r.Ok? ==> ("Elapsed", Num(r.value)) in stats
  {
    match Lookup(stats, "Elapsed")
    case Some(Num(n)) => Ok(n)
    case _ => Crash(BadElapsed(ip))
  }

  // ------------------------------------------------------------ one miner

  /** Everything the view extracts from one reachable miner. */
  datatype Reading = Reading(
    worker: string,
    chips: ChipCounts,
    totalChips: int,
    temps: seq<int>,
    fans: seq<Field>,
    ghs5s: real,
    hwErrorRate: Field,
    uptime: real)

  /** The extraction steps in the order the view runs them; the first
      uncaught exception ends the page. */
  function Parse(m: Miner, stats: Stats, pools: seq<Pool>, summary: Stats): (r: Result<Reading>)
    ensures r.Ok? <==>
      && SelectWorker(m.ip, pools).Ok?
      && TotalChips(m.model.chips).Ok?
      && Temperatures(m.ip, stats, m.model.tempKeys).Ok?
      && HashRate5s(m.ip, stats).Ok?
      && HardwareErrorRate(m.ip, stats, summary).Ok?
      && Uptime(m.ip, stats).Ok?
    ensures r.Ok? ==>
      && r.value.worker == SelectWorker(m.ip, pools).value
      && r.value.chips == ChipStatus(ChainTexts(stats))
      && r.value.totalChips == TotalChips(m.model.chips).value
      && r.value.temps == Temperatures(m.ip, stats, m.model.tempKeys).value
      && r.value.fans == FanSpeeds(stats)
      && r.value.ghs5s == HashRate5s(m.ip, stats).value
      && r.value.hwErrorRate == HardwareErrorRate(m.ip, stats, summary).value
      && r.value.uptime == Uptime(m.ip, stats).value
  {
    var worker := SelectWorker(m.ip, pools);
    if worker.Crash? then Crash(worker.fault) else
    var total := TotalChips(m.model.chips);
    if total.Crash? then Crash(total.fault) else
    var temps := Temperatures(m.ip, stats, m.model.tempKeys);
    if temps.Crash? then Crash(temps.fault) else
    var ghs := HashRate5s(m.ip, stats);
    if ghs.Crash? then Crash(ghs.fault) else
    var hw := HardwareErrorRate(m.ip, stats, summary);
    if hw.Crash? then Crash(hw.fault) else
    var up := Uptime(m.ip, stats);
    if up.Crash? then Crash(up.fault) else
    Ok(Reading(worker.value, ChipStatus(ChainTexts(stats)), total.value, temps.value,
               FanSpeeds(stats), ghs.value, hw.value, up.value))
  }
}

=== FILE: text.dfy ===
/**
 Text helpers for the fields a miner reports: character counting (Python's
 `str.count` for one character), substring search, the "prefix followed by a
 digit" key test, the integer and decimal parsers behind `int(...)` and
 `float(...)`, comma splitting, and the code-point order `sorted` uses on keys.
 */
module Text {

  datatype Option<+T> = None | Some(value: T)

  /** Number of occurrences of `c` in `s`. */
  function Occurrences(s: string, c: char): (n: nat)
    ensures n <= |s|
    ensures n == 0 <==> c !in s
  {
    if |s| == 0 then 0
    else
      assert c in s <==> s[0] == c || c in s[1..];
      (if s[0] == c then 1 else 0) + Occurrences(s[1..], c)
  }

  lemma {:induction false} OccurrencesAppend(a: string, b: string, c: char)
    ensures Occurrences(a + b, c) == Occurrences(a, c) + Occurrences(b, c)
    decreases |a|
  {
    if |a| == 0 {
      assert a + b == b;
    } else {
      assert (a + b)[1..] == a[1..] + b;
      OccurrencesAppend(a[1..], b, c);
    }
  }

  /** Counting a prefix one character longer adds that character's share. */
  lemma OccurrencesSnoc(s: string, j: nat, c: char)
    requires j < |s|
    ensures Occurrences(s[..j + 1], c) == Occurrences(s[..j], c) + (if s[j] == c then 1 else 0)
  {
    assert s[..j + 1] == s[..j] + [s[j]];
    OccurrencesAppend(s[..j], [s[j]], c);
  }

  /** The five chip-status symbols are distinct characters, so together they
      occur at most once per position of the chain string. */
  lemma {:induction false} StatusSymbolsBound(s: string)
    ensures Occurrences(s, 'o') + Occurrences(s, 'x') + Occurrences(s, 'B')
          + Occurrences(s, 'C') + Occurrences(s, '-') <= |s|
    decreases |s|
  {
    if |s| > 0 {
      StatusSymbolsBound(s[1..]);
    }
  }

  /** `p` occurs in `s` starting at index `i`. */
  predicate OccursAt(s: string, p: string, i: int)
  {
    0 <= i && i + |p| <= |s| && s[i..i + |p|] == p
  }

  /** Python's `p in s` for strings. */
  predicate Contains(s: string, p: string)
  {
    exists i | 0 <= i <= |s| :: OccursAt(s, p, i)
  }

  predicate IsDigit(c: char)
  {
    '0' <= c <= '9'
  }

  predicate AllDigits(s: string)
  {
    forall i | 0 <= i < |s| :: IsDigit(s[i])
  }

  /** `prefix` occurs in `key` at `i` and is immediately followed by a digit. */
  predicate PrefixDigitAt(key: string, prefix: string, i: int)
  {
    OccursAt(key, prefix, i) && i + |prefix| < |key| && IsDigit(key[i + |prefix|])
  }

  /** `re.search(prefix + '[0-9]', key)` succeeds, reading `prefix` literally. */
  predicate HasPrefixDigit(key: string, prefix: string)
  {
    exists i | 0 <= i < |key| :: PrefixDigitAt(key, prefix, i)
  }

  function DigitValue(c: char): nat
    requires IsDigit(c)
  {
    (c as int - '0' as int) as nat
  }

  /** The number a string of decimal digits denotes (most significant first). */
  function DigitsValue(s: string): nat
    requires AllDigits(s)
    decreases |s|
  {
    if |s| == 0 then 0
    else DigitsValue(s[..|s| - 1]) * 10 + DigitValue(s[|s| - 1])
  }

  /** The decimal rendering of `n`, as Python's `str(n)` for a non-negative int. */
  function Decimal(n: nat): (s: string)
    ensures |s| > 0 && AllDigits(s)
    ensures DigitsValue(s) == n
  {
    var d := ['0' + (n % 10) as char];
    if n < 10 then d
    else
      var h := Decimal(n / 10);
      assert (h + d)[..|h + d| - 1] == h;
      h + d
  }

  /** `int(s)` on a string: an optional sign followed by decimal digits;
      anything else is Python's `ValueError`, here `None`. */
  function ParseInt(s: string): (r: Option<int>)
    ensures r.Some? ==> |s| > 0
    ensures r.Some? && s[0] != '-' ==> r.value >= 0
  {
    if |s| > 0 && (s[0] == '-' || s[0] == '+') then
      var body := s[1..];
      if |body| > 0 && AllDigits(body) then
        Some(if s[0] == '-' then -(DigitsValue(body) as int) else DigitsValue(body))
      else None
    else if |s| > 0 && AllDigits(s) then Some(DigitsValue(s))
    else None
  }

  lemma ParseIntDecimal(n: nat)
    ensures ParseInt(Decimal(n)) == Some(n)
    ensures ParseInt("-" + Decimal(n)) == Some(-(n as int))
  {
    var s := "-" + Decimal(n);
    assert s[1..] == Decimal(n);
  }

  /** Position of the first `sep` in `s`, or `|s|` when there is none. */
  function IndexOf(s: string, sep: char): (i: nat)
    ensures i <= |s|
    ensures i < |s| ==> s[i] == sep
    ensures sep !in s[..i]
  {
    if |s| == 0 then 0
    else if s[0] == sep then 0
    else
      var j := IndexOf(s[1..], sep);
      assert s[..1 + j] == [s[0]] + s[1..][..j];
      1 + j
  }

  /** `s.split(sep)`: the pieces between separators, always at least one. */
  function Split(s: string, sep: char): (parts: seq<string>)
    ensures |parts| > 0
    ensures forall k | 0 <= k < |parts| :: sep !in parts[k]
    decreases |s|
  {
    var i := IndexOf(s, sep);
    if i == |s| then
      assert s[..i] == s;
      [s]
    else [s[..i]] + Split(s[i + 1..], sep)
  }

  /** `sep.join(parts)`. */
  function Join(parts: seq<string>, sep: char): string
    requires |parts| > 0
  {
    if |parts| == 1 then parts[0]
    else parts[0] + [sep] + Join(parts[1..], sep)
  }

  lemma {:induction false} SplitJoin(parts: seq<string>, sep: char)
    requires |parts| > 0
    requires forall k | 0 <= k < |parts| :: sep !in parts[k]
    ensures Split(Join(parts, sep), sep) == parts
    decreases |parts|
  {
    var p := parts[0];
    if |parts| == 1 {
      IndexOfAbsent(p, sep);
    } else {
      var rest := Join(parts[1..], sep);
      var s := p + [sep] + rest;
      assert Join(parts, sep) == s;
      IndexOfAfter(p, sep, rest);
      assert s[..|p|] == p;
      assert s[|p| + 1..] == rest;
      assert Split(s, sep) == [p] + Split(rest, sep);
      assert forall k | 0 <= k < |parts| - 1 :: parts[1..][k] == parts[k + 1];
      SplitJoin(parts[1..], sep);
      assert parts == [p] + parts[1..];
    }
  }

  lemma {:induction false} IndexOfAbsent(s: string, sep: char)
    requires sep !in s
    ensures IndexOf(s, sep) == |s|
    decreases |s|
  {
    if |s| > 0 {
      assert s[1..] <= s[1..];
      assert forall c | c in s[1..] :: c in s;
      IndexOfAbsent(s[1..], sep);
    }
  }

  lemma {:induction false} IndexOfAfter(p: string, sep: char, rest: string)
    requires sep !in p
    ensures IndexOf(p + [sep] + rest, sep) == |p|
    decreases |p|
  {
    var s := p + [sep] + rest;
    if |p| > 0 {
      assert s[1..] == p[1..] + [sep] + rest;
      assert forall c | c in p[1..] :: c in p;
      IndexOfAfter(p[1..], sep, rest);
    }
  }

  /** `float(s)` on a string: optional sign, digits, an optional fractional part
      after one `.`, and at least one digit; anything else is `None`. */
  function ParseReal(s: string): (r: Option<real>)
    ensures r.Some? ==> |s| > 0
  {
    var neg := |s| > 0 && s[0] == '-';
    var body := if |s| > 0 && (s[0] == '-' || s[0] == '+') then s[1..] else s;
    var dot := IndexOf(body, '.');
    var whole := body[..dot];
    var frac := if dot < |body| then body[dot + 1..] else "";
    if |whole| + |frac| > 0 && AllDigits(whole) && AllDigits(frac) then
      var v := DigitsValue(whole) as real + DigitsValue(frac) as real / Pow10(|frac|) as real;
      Some(if neg then -v else v)
    else None
  }

  function Pow10(k: nat): (p: nat)
    ensures p >= 1
  {
    if k == 0 then 1 else 10 * Pow10(k - 1)
  }

  lemma ParseRealDecimal(n: nat)
    ensures ParseReal(Decimal(n)) == Some(n as real)
  {
    var s := Decimal(n);
    assert s[0] != '-' && s[0] != '+';
    IndexOfAbsent(s, '.');
    assert s[..|s|] == s;
  }

  /** `a <= b` on Python strings: lexicographic order on code points. */
  predicate AtMost(a: string, b: string)
    decreases |a|
  {
    |a| == 0 || (|b| > 0 && (a[0] < b[0] || (a[0] == b[0] && AtMost(a[1..], b[1..]))))
  }

  lemma {:induction false} AtMostTotal(a: string, b: string)
    ensures AtMost(a, b) || AtMost(b, a)
    decreases |a|
  {
    if |a| > 0 && |b| > 0 && a[0] == b[0] {
      AtMostTotal(a[1..], b[1..]);
    }
  }

  lemma {:induction false} AtMostTransitive(a: string, b: string, c: string)
    requires AtMost(a, b) && AtMost(b, c)
    ensures AtMost(a, c)
    decreases |a|
  {
    if |a| > 0 && a[0] == b[0] && b[0] == c[0] {
      AtMostTransitive(a[1..], b[1..], c[1..]);
    }
  }

  lemma {:induction false} AtMostAntisymmetric(a: string, b: string)
    requires AtMost(a, b) && AtMost(b, a)
    ensures a == b
    decreases |a|
  {
    if |a| > 0 {
      AtMostAntisymmetric(a[1..], b[1..]);
      assert a == [a[0]] + a[1..] && b == [b[0]] + b[1..];
    }
  }
}
